=== FILE: README.md ===
# User account management: the account list and the account editor

This project models the core of a desktop user-account manager. It has two
parts, and a third part joins them.

- **The account list** (`AccountModel`). The list keeps an ordered list of
  account object paths. It also keeps a map from path to account proxy and a
  map from path to "has an open session". A permanent "new-user" draft row has
  no proxy. The list reads every account field live from the account service.
  - Writes on account rows go to the service.
  - Writes on the draft row are staged into a draft.
  - When the draft holds five roles, the list asks the service to create the
    account.
  - The service's "added" and "deleted" notifications keep the rows in step.
- **The account editor** (`AccountInfo`). The editor holds the text fields and
  check boxes of the selected row. It cleans and validates what was typed, and
  keeps a map of the roles staged for saving. A save sends the five field
  writes in order, then the password when one is staged.
- **Saving** (`Saving`) plays a save through the list, write by write. On the
  draft row, the first four writes are staged. The fifth write,
  automatic login, makes the one `CreateUser` call. The account type of that
  call comes from the automatic-login value.

Helper modules:

- `Text`: ASCII case mapping, trimming of QChar whitespace, character removal and UTF-16 length.
- `Seqs`: the list operations `indexOf`, `removeAll` and `insert`, and
  duplicate-freedom.
- `Values`: roles, and a variant value with Qt's string and boolean
  conversions.
- `Remote`: the account service. It is a store of records keyed by object
  path, plus a log of the calls made to it. A call's success is a parameter;
  `Apply` gives the effect of a call that succeeded.

The invariant of the list (`AccountModel.Inv`):

- the row list and both maps hold the same keys;
- every key is on exactly one row;
- only the draft row lacks a proxy;
- once loaded, the draft row is last.

For a listing without repeated paths the constructor establishes it, and every operation keeps it, with one
exception. `userAdded` has no duplicate guard, so an "added" notification
for a path that is already listed inserts its row again and breaks the
invariant. `AccountModel.UserAddedTwiceHidesDraftRow` shows the result: the
row is duplicated, and the draft row moves beyond `rowCount`.

Two other behaviours of the code worth knowing:

- The account type of `CreateUser` comes from the boolean value of the write
  that completes the draft. In a save, that is the automatic-login box; the
  administrator box plays no part in it.
- The staging step `hasChanged` is not idempotent in two cases:
  - a user name that starts with a space
    (`AccountInfo.LeadingSpaceChangesOnSecondPass`);
  - a blank real name, which is cleared and then staged as empty
    (`AccountInfo.BlankNameStagedOnSecondPass`).

  `AccountInfo.HasChangedIdempotent` proves idempotence outside these cases.

## Model

| member | source | states |
|---|---|---|
| AccountModel.Construct | src/lib/accountmodel.cpp:35-60 | A failed listing leaves the model empty and unsubscribed. Otherwise the model is subscribed, the scanned accounts come first and the draft row, with no proxy, is appended last; the maps are the scan's plus the draft row, and no key starts logged in. |
| AccountModel.ConstructValid | src/lib/accountmodel.cpp:35-60 | For a duplicate-free listing, the constructed model satisfies the list invariant. Its keys are exactly the admitted paths plus the draft row. |
| AccountModel.ConstructRows | src/lib/accountmodel.cpp:48-54 | After construction, the rows are the caller's own accounts (each put at row 0, so the last found leads), then the others in listing order, then the draft row. A caller with one account finds it on row 0. |
| AccountModel.LoadOrder | src/lib/accountmodel.cpp:248-263 | The scan's row order equals the reverse of the caller's own admitted accounts followed by the other admitted accounts. |
| AccountModel.LoadMaps | src/lib/accountmodel.cpp:248-275 | On a duplicate-free listing, the scan maps exactly the admitted paths, each to its own proxy and not logged in, and keeps the rows and maps in step. |
| AccountModel.AdmittedPathsMember | src/lib/accountmodel.cpp:250-254 | A path is admitted by the scan iff some listing position holds it, its object answers, and it is not a system account. |
| AccountModel.AddAccount | src/lib/accountmodel.cpp:248-263 | A missing or system account changes nothing. The caller's own account is prepended to the rows; any other account is appended. Either way it is mapped to its proxy and marked not logged in. |
| AccountModel.AddAccountStep | src/lib/accountmodel.cpp:248-263 | One scan step on a new path keeps the containers in step and adds the path exactly when it is admitted. |
| AccountModel.AddToCache | src/lib/accountmodel.cpp:265-275 | Inserting at a non-negative position puts the key there and shifts the rest; position -1 appends. The key maps to the proxy and is marked not logged in. |
| AccountModel.AddToCacheInStep | src/lib/accountmodel.cpp:265-275 | Adding a new key keeps the row list and maps in step and raises the row count by one. |
| AccountModel.RemoveAccount | src/lib/accountmodel.cpp:278-283 | Removing a path drops its one row, keeping the others in order, and drops it from both maps. The row count falls by one. |
| AccountModel.RemoveAccountKeepsInv | src/lib/accountmodel.cpp:278-283 | Removing any account path other than the draft row keeps the invariant. The removed row was not the last. |
| AccountModel.IndexFor | src/lib/accountmodel.cpp:68-75 | An index is valid exactly for rows 0 to rowCount-1, and then carries that row. |
| AccountModel.Data | src/lib/accountmodel.cpp:77-126 | An invalid or out-of-range index, and the draft row, read as empty. On an account row, the names and e-mail come from the account's record, Administrator reads "account type is 1", AutomaticLogin reads the record's flag, and Logged reads the session map. Face, Created and Password read empty. |
| AccountModel.FieldCall | src/lib/accountmodel.cpp:144-185 | Exactly the five field roles map to a setter call, on the row's own object. |
| AccountModel.SetAccountData | src/lib/accountmodel.cpp:144-192 | On an account row, Face and Logged succeed without a service call, and Logged records the flag. A field role sends exactly its setter call and succeeds iff that call succeeds; the service then applies it, and a successful real-name write is followed by UncacheUser and CacheUser for the account's user name. No write on an account row ever sends CreateUser. A failure changes nothing locally or remotely and reports no changed row. Rows, proxies and draft are never touched. |
| AccountModel.SetData | src/lib/accountmodel.cpp:128-142 | An invalid or out-of-range index gives false with no effect. The draft row goes to `newUserSetData`; account rows write through. The invariant is kept. |
| AccountModel.SetDataRoundTrip | src/lib/accountmodel.cpp:108-117 | After a successful field write on an account row, `data` reads back what was written. Administrator goes out as type 1/0 and comes back as "type is 1". |
| AccountModel.SetDataFailureChangesNothing | src/lib/accountmodel.cpp:149-182 | A refused field write answers false, reports no change, and leaves every local and remote field as it was. |
| AccountModel.Touch | src/lib/accountmodel.cpp:229 | Reading a missing key with the map's index operator inserts it with an empty value and keeps the other entries. |
| AccountModel.CreateRefused | src/lib/accountmodel.cpp:229-236 | A refused CreateUser answers false with one call, leaves the service unchanged, and keeps the draft, which has gained the user-name and real-name keys; a key it gains holds the empty value. |
| AccountModel.CreateAccepted | src/lib/accountmodel.cpp:237-245 | An accepted CreateUser sends the create call, then SetAutomaticLogin and SetEmail on the new object with the draft's flag and address, clears the draft, and leaves a record with the draft's names, e-mail and automatic-login flag. |
| AccountModel.CreateAccount | src/lib/accountmodel.cpp:228-245 | The answer is the service's answer, and the refused and accepted cases are the two functions above. |
| AccountModel.NewUserSetData | src/lib/accountmodel.cpp:220-246 | Staging a role that leaves fewer than five roles answers true, makes no call, and updates only the draft. The fifth role creates the account, typed 1 or 0 by the boolean value just staged. |
| AccountModel.UserAdded | src/lib/accountmodel.cpp:311-323 | A system account, or a model that never loaded, is ignored. Otherwise the path is inserted just before the draft row, mapped to its proxy and marked not logged in, and the model stays subscribed. The invariant holds only when the path was new. |
| AccountModel.UserAddedTwiceHidesDraftRow | src/lib/accountmodel.cpp:319-321 | A second add of a listed path duplicates its row, leaves the row count unchanged, and leaves no draft row below the row count. |
| AccountModel.UserDeleted | src/lib/accountmodel.cpp:325-335 | An unknown path changes nothing. A listed one loses its row (never the draft row) and both map entries, and the other rows keep their order. |
| AccountModel.ChangedIndex | src/lib/accountmodel.cpp:337-344 | The reported index is valid iff the path is listed, and then it points at that path's row. |
| AccountModel.AccountPathForUid | src/lib/accountmodel.cpp:354-364 | The empty path is returned iff no proxy reports the uid. Otherwise the result is a listed path whose proxy reports it. |
| AccountModel.UserLogged | src/lib/accountmodel.cpp:346-352 | The session flag of the account with the uid is set. An unknown uid, or a model that never loaded, changes nothing. Rows, proxies and draft are kept. |
| AccountModel.RemoveAccountKeepingFiles | src/lib/accountmodel.cpp:200-207 | Exactly one DeleteUser call is made, by the row's uid and with the caller's flag passed through unchanged (the user manager passes its delete-files choice there, `removeRows` passes true). The rows stay. On success, the row's object is gone, the objects left are exactly those with a different uid, and each keeps its record. |
| AccountModel.DeleteThenNotified | src/lib/accountmodel.cpp:200-207 | A successful deletion followed by the removal notification drops exactly the deleted row. |
| Seqs.IndexOf | src/lib/accountmodel.cpp:332 | indexOf gives -1 iff the element is absent, and otherwise its first position. |
| Seqs.RemoveAllOnce | src/lib/accountmodel.cpp:280 | In a duplicate-free list, removeAll drops exactly the one position holding the element. |
| Seqs.InsertAt | src/lib/accountmodel.cpp:268 | Inserting puts the element at the position and shifts the tail. |
| Values.AsBool | src/lib/accountmodel.cpp:228 | A flag converts to itself and an empty value to false. A string is true unless it is empty, "0" or "false" in any case. |
| Values.FlagRoundTrip | src/lib/accountmodel.cpp:173 | A flag survives the conversion to boolean, also through its string form. |
| AccountInfo.CleanName | src/accountinfo.cpp:213-216 | The real name is kept exactly as typed. |
| AccountInfo.ValidateName | src/accountinfo.cpp:218-226 | A name is accepted iff it is empty or has a character that is not whitespace in the QChar sense, which includes the Unicode spaces. |
| Text.TrimmedEmptyIffAllSpace | src/accountinfo.cpp:220 | Trimming leaves nothing iff the string is all whitespace. |
| AccountInfo.UnicodeBlankNameRefused | src/accountinfo.cpp:218-226 | A name of no-break and ideographic spaces is refused, and one with a letter after a no-break space is accepted. |
| AccountInfo.CleanUsername | src/accountinfo.cpp:228-241 | An empty name is kept. Otherwise the first character is lowered and every space removed. The result has no space. |
| AccountInfo.CleanUsernameIdempotent | src/accountinfo.cpp:228-241 | Cleaning a cleaned name changes nothing when it did not start with a space. |
| AccountInfo.CleanUsernameLeadingSpace | src/accountinfo.cpp:234-238 | " Ab" cleans to "Ab", which cleans again to "ab": cleaning is not idempotent in that case. |
| AccountInfo.FirstInvalid | src/accountinfo.cpp:266-277 | The character loop stops at the first character outside letters, digits, '_', '.' and '-', or finds none. |
| AccountInfo.ValidateUsername | src/accountinfo.cpp:243-295 | A name is accepted iff it is non-empty, not taken, starts with a lower-case letter, uses only allowed characters, and is at most 31 UTF-16 units. A taken name has only that complaint. Otherwise each broken rule adds its complaint, once, in the order first letter, characters, length. |
| Text.Utf16Length | src/accountinfo.cpp:284 | The length counted in UTF-16 units is between one and two per character, and one per character within the basic plane. |
| AccountInfo.AcceptedUsernameIsClean | src/accountinfo.cpp:243-295 | A name the validator accepts is already clean and at most 31 characters long. |
| AccountInfo.CleanEmail | src/accountinfo.cpp:297-309 | An empty address is kept. Otherwise the result is the lower-cased address without spaces, so it has no space and no upper-case letter. |
| AccountInfo.CleanEmailIdempotent | src/accountinfo.cpp:297-309 | Cleaning an address twice is the same as cleaning it once. |
| Text.LowerRemoveSpaceCommute | src/accountinfo.cpp:303 | Lower-casing and removing spaces commute. |
| AccountInfo.ValidateEmail | src/accountinfo.cpp:311-327 | An address is accepted iff it is non-empty. A warning is raised iff it is non-empty and does not have the expected shape. |
| AccountInfo.EmailShapeExamples | src/accountinfo.cpp:317-321 | "a@b.com" has the expected shape and "not-an-email" does not. |
| AccountInfo.Staging | src/accountinfo.cpp:169-205 | A text role is staged iff its cleaned value differs from the model's and validates. A check box is staged iff it differs from the model. Avatar and password are staged iff they were staged before. Nothing else is staged. |
| AccountInfo.StagingValues | src/accountinfo.cpp:169-205 | Staged values are the cleaned texts, the check-box states, and the avatar and password carried over. |
| AccountInfo.HasChanged | src/accountinfo.cpp:163-211 | The user-name and e-mail fields are rewritten in clean form. A refused blank real name is cleared. The staged map is replaced by a fresh staging. |
| AccountInfo.HasChangedIdempotent | src/accountinfo.cpp:163-211 | Without a leading space in the user name or a refused blank name, a second staging pass with the same model values changes nothing. |
| AccountInfo.BlankNameStagedOnSecondPass | src/accountinfo.cpp:170-175 | A blank real name is not staged but cleared, and the next pass stages the empty name. |
| AccountInfo.LeadingSpaceChangesOnSecondPass | src/accountinfo.cpp:177-182 | A user name " Ab" becomes "Ab" on one pass and "ab" on the next. |
| AccountInfo.LoadFromModel | src/accountinfo.cpp:104-114 | The text fields show the string form of the model's values, so a non-string value (the draft row, an invalid index) gives "". The boxes show their boolean form, and the staged map is kept. |
| AccountInfo.SetModelIndex | src/accountinfo.cpp:88-97 | An invalid or unchanged index changes nothing. A new index drops the staged map and reloads the fields. |
| AccountInfo.FreshSelectionStagesNothing | src/accountinfo.cpp:88-97 | Right after selecting a row whose stored user name and e-mail are clean, a staging pass stages nothing. |
| AccountInfo.ClearAvatar | src/accountinfo.cpp:375-380 | An empty avatar path is staged and nothing else changes. |
| AccountInfo.AvatarCreated | src/accountinfo.cpp:360-367 | The new avatar path is staged and nothing else changes. |
| AccountInfo.ClearedAvatarIsSaved | src/accountinfo.cpp:375-380 | A cleared avatar survives the staging pass, so the next save answers true and moves the empty path into place. |
| AccountInfo.ChangePassword | src/accountinfo.cpp:382-393 | A cancelled dialog changes nothing. An accepted one stages the password. |
| AccountInfo.StagedExtrasSurvive | src/accountinfo.cpp:199-205 | A staged avatar and password survive the next staging pass unchanged. |
| AccountInfo.FieldWrites | src/accountinfo.cpp:124-138 | The five field writes carry the current field contents, staged or not, in the order user name, real name, e-mail, administrator box, automatic-login box. |
| AccountInfo.Save | src/accountinfo.cpp:116-161 | With nothing staged, save answers false and sends nothing. Otherwise it sends the five field writes, then the password if staged, never Face. It moves the staged avatar, clears the staged map, and answers true. |
| Saving.ViewOf | src/lib/accountmodel.cpp:87-117 | The editor's view of the draft row is empty in every field; the view of an account row is the record's names and e-mail, its account type read as "type is 1", and its automatic-login flag. |
| Saving.SelectRow | src/accountinfo.cpp:88-114 | Selecting another row drops what was staged and reloads the boxes from that row: all empty and unchecked for the draft row, the record's fields for an account row. |
| Saving.ApplyWrites | src/accountinfo.cpp:124-143 | Playing writes through `setData` keeps the invariant, leaves rows and proxies alone, and gives one answer per write. |
| Saving.StagedDraftWrite | src/lib/accountmodel.cpp:220-226 | A draft-row write that keeps the draft within the first four roles answers true, makes no call, and only updates the draft. |
| Saving.CompletingDraftWrite | src/lib/accountmodel.cpp:228-229 | The automatic-login write that completes the draft makes one CreateUser call. The call carries the drafted names and is typed by the automatic-login value. |
| Saving.StagedFrom | src/accountinfo.cpp:124-135 | From any of the first four writes on, each staged write adds a true answer and no call. |
| Saving.FourStaged | src/accountinfo.cpp:124-135 | The first four field writes on the draft row answer true and make no call. |
| Saving.FifthCreates | src/accountinfo.cpp:136-138 | The fifth field write on the draft row makes exactly one CreateUser call and answers as the service does. |
| Saving.FieldWritesOnDraft | src/accountinfo.cpp:124-138 | The five field writes on the draft row make exactly one CreateUser call, typed by the automatic-login box, and answer true four times before the service's answer. |
| Saving.SaveOnDraftRow | src/accountinfo.cpp:116-161 | A save on the draft row with no password staged sends five writes. The fifth is automatic login and makes the one CreateUser call, typed by that value. |

## Left out

- The D-Bus transport. Every blocking call takes its outcome as a parameter, a `Reply`. The calls made after CreateUser without waiting are assumed to land.
- The display and decoration roles, icons, pixmaps, tool tips and validation icons. The `||` case labels in `data` and `newUserData` evaluate to 0 and 1, the display and decoration roles; the display text and the icons they return are not modelled, and the model's roles are only the typed ones.
- Qt signals: `dataChanged`, `beginInsertRows` and `changed`. The list returns the rows it would report, and the editor's widget effects are part of the returned editor.
- Avatar file handling: the image chooser, scaling and moving the file into place. A save returns the path to move; the file system is not modelled.
- The password dialog. Its result enters as an optional string.
- UncacheUser and CacheUser after a real-name write are logged but have no effect on the store.
- Unicode case mapping. Upper and lower case are ASCII only, and the lower-casing of non-ASCII letters is not modelled.
- The password database and the process's own uid. `getpwnam` becomes the set of existing names, and `getuid` becomes a parameter.
- The order of the hash table walked by `accountPathForUid`. The model walks the rows, and its contract holds for any order.
- The enabled state of the change-password button, which depends on the `Created` role.
- The session tracker that feeds `userLogged` is not part of this model, and neither is the user manager window.
- AccountModel.RemoveAccountKeepingFiles: requires an account row, because on the draft row the source asks a missing proxy for its uid.
- AccountModel.Data: reads the Face role as empty on every row. The role enumeration is not part of this model; if Face is the decoration role, the source returns the account's icon on account rows and the add-user icon on the draft row, and pixmaps are not modelled. Created and Password have no case in `data` and read empty.
- AccountInfo.ValidateEmail: the regular expression is modelled as a shape predicate over ASCII, checked only on the two examples in `EmailShapeExamples`.
- AccountInfo.Save: takes all five field values from the editor as it stands when the save starts. In the source every successful write on an account row emits `dataChanged`, the editor answers by running `hasChanged` again, and that re-cleans the user-name and e-mail boxes (and would clear a real name of blanks that differs from the stored one) before the next write reads its box. A box loaded from the account list is not cleaned on loading, so with a stored address "Bob@Example.com" and only a password staged the source sends "bob@example.com" where the model sends "Bob@Example.com". Signals are not modelled, so this feedback is not either.
- Saving.SaveOnDraftRow: covers a save with no password staged and a draft holding no more than the four text and administrator roles. A password write would be a sixth draft role. A draft already holding five roles is reachable: a refused CreateUser keeps the draft (accountmodel.cpp lines 229-236, see `AccountModel.CreateRefused`). The next save then creates the account at its first write, the user name, typed by the boolean reading of the user-name string, so usually as an administrator. The model computes this, but no lemma states it.

=== FILE: accountinfo.dfy ===
/**
 The account editor: the text fields and check boxes of one selected row, the
 normalisation and validation of what the user typed, the map of roles staged
 for saving, and the ordered writes a save sends to the account list.
 Widget state changes made by the clean/validate helpers (rewritten text, a
 cleared field) are part of the returned editor; icons and tool tips are not.
 */
module AccountInfo {
  import opened Text
  import opened Values

  /** `UT_NAMESIZE` of the C library's utmp records. */
  const UtNameSize: nat := 32

  /** `MAX_USER_LEN`: the longest user name the editor accepts, in UTF-16 code units. */
  const MaxUserLen: nat := UtNameSize - 1

  // ---------------------------------------------------------------------------
  // Real name

  /** `cleanName`: the real name is taken as typed. */
  function CleanName(name: string): (r: string)
    ensures r == name
  {
    name
  }

  /** `validateName`: only a non-empty name made of whitespace alone is refused. */
  function ValidateName(name: string): (ok: bool)
    ensures ok <==> |name| == 0 || exists k | 0 <= k < |name| :: !IsSpace(name[k])
  {
    TrimmedEmptyIffAllSpace(name);
    !(|name| > 0 && |Trimmed(name)| == 0)
  }

  /** Trimming strips Unicode spaces too: a name of no-break and ideographic spaces is refused, one with a letter is not. */
  lemma UnicodeBlankNameRefused()
    ensures !ValidateName("\U{A0}\U{3000}")
    ensures ValidateName("\U{A0}A")
  {
    assert "\U{A0}A"[1] == 'A';
  }

  // ---------------------------------------------------------------------------
  // User name

  /**
   `cleanUsername`: an upper-case first character is lowered, then every space
   is removed. Only the first character can change case.
   */
  function CleanUsername(u: string): (r: string)
    ensures |u| == 0 ==> r == u
    ensures ' ' !in r
    ensures |u| > 0 && u[0] != ' ' ==> r == [ToLower(u[0])] + RemoveChar(u[1..], ' ')
    ensures |u| > 0 && u[0] == ' ' ==> r == RemoveChar(u[1..], ' ')
  {
    if |u| == 0 then u
    else
      var first := if IsUpper(u[0]) then ToLower(u[0]) else u[0];
      var s := [first] + u[1..];
      assert s[1..] == u[1..];
      RemoveChar(s, ' ')
  }

  /** A name cleaned once is clean, unless it started with a space: then a second character comes first and may be lowered in turn. */
  lemma CleanUsernameIdempotent(u: string)
    requires |u| == 0 || u[0] != ' '
    ensures CleanUsername(CleanUsername(u)) == CleanUsername(u)
  {
    if |u| > 0 {
      var r := CleanUsername(u);
      RemoveCharAbsent(r[1..], ' ');
      assert r[1..] == RemoveChar(u[1..], ' ');
    }
  }

  /** " Ab" cleans to "Ab", which cleans again to "ab". */
  lemma CleanUsernameLeadingSpace()
    ensures CleanUsername(" Ab") == "Ab"
    ensures CleanUsername("Ab") == "ab"
  {
    assert " Ab"[1..] == "Ab";
    assert RemoveChar("Ab", ' ') == "Ab" by {
      RemoveCharAbsent("Ab", ' ');
    }
    assert RemoveChar("b", ' ') == "b" by {
      RemoveCharAbsent("b", ' ');
    }
  }

  /**
   The bytes a user name may hold. The source checks the UTF-8 bytes of the
   name; a character outside ASCII encodes to bytes of 0x80 and above, none
   of which is in the class, so checking characters is the same test.
   */
  predicate UsernameChar(ch: char) {
    IsLower(ch) || IsUpper(ch) || ('0' <= ch <= '9') || ch == '_' || ch == '.' || ch == '-'
  }

  /** The scan of the source's character loop: the first position holding a character outside the class (where the loop breaks), or -1. */
  function FirstInvalid(s: string, from: nat): (i: int)
    requires from <= |s|
    ensures i == -1 <==> forall k | from <= k < |s| :: UsernameChar(s[k])
    ensures i != -1 ==> from <= i < |s| && !UsernameChar(s[i]) && forall k | from <= k < i :: UsernameChar(s[k])
    decreases |s| - from
  {
    if from == |s| then -1
    else if !UsernameChar(s[from]) then from
    else FirstInvalid(s, from + 1)
  }

  /** The three complaints that accumulate in one tool tip, plus the name-taken one that stands alone. */
  datatype UsernameProblem = AlreadyUsed | BadFirstLetter | BadCharacter | TooLong

  /** The place of a complaint in the tool tip: first letter, then characters, then length. */
  function ProblemRank(p: UsernameProblem): nat {
    match p
    case AlreadyUsed => 0
    case BadFirstLetter => 1
    case BadCharacter => 2
    case TooLong => 3
  }

  datatype UsernameCheck = UsernameCheck(ok: bool, problems: seq<UsernameProblem>)

  /**
   `validateUsername`. `existing` is the set of names the password database
   knows. An empty name is refused silently; a taken name is refused with that
   complaint alone; otherwise every violated rule adds its complaint, in the
   source's order, and the name is accepted when there is none.
   */
  function ValidateUsername(u: string, existing: set<string>): (r: UsernameCheck)
    ensures r.ok <==>
      && |u| > 0 && u !in existing && IsLower(u[0])
      && (forall k | 0 <= k < |u| :: UsernameChar(u[k]))
      && Utf16Length(u) <= MaxUserLen
    ensures r.ok <==> |u| > 0 && r.problems == []
    ensures |u| == 0 ==> r.problems == []
    ensures |u| > 0 && u in existing ==> r.problems == [AlreadyUsed]
    ensures |u| > 0 && u !in existing ==>
      && AlreadyUsed !in r.problems
      && (BadFirstLetter in r.problems <==> !IsLower(u[0]))
      && (BadCharacter in r.problems <==> exists k | 0 <= k < |u| :: !UsernameChar(u[k]))
      && (TooLong in r.problems <==> Utf16Length(u) > MaxUserLen)
    ensures forall i, j | 0 <= i < j < |r.problems| :: ProblemRank(r.problems[i]) < ProblemRank(r.problems[j])
  {
    if |u| == 0 then UsernameCheck(false, [])
    else if u in existing then UsernameCheck(false, [AlreadyUsed])
    else
      var problems :=
        (if IsLower(u[0]) then [] else [BadFirstLetter])
        + (if FirstInvalid(u, 0) == -1 then [] else [BadCharacter])
        + (if Utf16Length(u) > MaxUserLen then [TooLong] else []);
      UsernameCheck(problems == [], problems)
  }

  /** An accepted user name is already in clean form, and it is at most 31 characters long. */
  lemma AcceptedUsernameIsClean(u: string, existing: set<string>)
    requires ValidateUsername(u, existing).ok
    ensures CleanUsername(u) == u
    ensures |u| <= MaxUserLen
  {
    RemoveCharAbsent(u[1..], ' ');
  }

  // ---------------------------------------------------------------------------
  // E-mail

  /** `cleanEmail`: lower case, every space removed; an empty address is left alone. */
  function CleanEmail(e: string): (r: string)
    ensures |e| == 0 ==> r == e
    ensures |e| > 0 ==> r == Lower(RemoveChar(e, ' '))
    ensures ' ' !in r
    ensures forall k | 0 <= k < |r| :: !IsUpper(r[k])
  {
    if |e| == 0 then e
    else
      LowerRemoveSpaceCommute(e);
      LowerHasNoUpper(e);
      RemoveCharKeepsLower(Lower(e), ' ');
      RemoveChar(Lower(e), ' ')
  }

  lemma CleanEmailIdempotent(e: string)
    ensures CleanEmail(CleanEmail(e)) == CleanEmail(e)
  {
    var r := CleanEmail(e);
    if |r| > 0 {
      RemoveCharAbsent(r, ' ');
      LowerOfLower(r);
    }
  }

  predicate IsAsciiLetter(ch: char) {
    IsUpper(ch) || IsLower(ch)
  }

  predicate IsDigit(ch: char) {
    '0' <= ch <= '9'
  }

  /** `[A-Z0-9._%+-]` under case-insensitive matching. */
  predicate LocalChar(ch: char) {
    IsAsciiLetter(ch) || IsDigit(ch) || ch == '.' || ch == '_' || ch == '%' || ch == '+' || ch == '-'
  }

  /** `[A-Z0-9.-]` under case-insensitive matching. */
  predicate DomainChar(ch: char) {
    IsAsciiLetter(ch) || IsDigit(ch) || ch == '.' || ch == '-'
  }

  /** A word character for `\b`. */
  predicate WordChar(ch: char) {
    IsAsciiLetter(ch) || IsDigit(ch) || ch == '_'
  }

  /**
   An exact, case-insensitive match of `\b[A-Z0-9._%+-]+@[A-Z0-9.-]+\.[A-Z]{2,4}\b`:
   a local part, '@', a domain part, '.', and two to four letters. The string
   ends in a letter, so the closing `\b` always holds; the opening one asks for a
   word character first.
   */
  predicate EmailShape(e: string) {
    exists at, dot | 0 < at < dot < |e| - 2 ::
      && e[at] == '@' && e[dot] == '.'
      && WordChar(e[0])
      && (forall k | 0 <= k < at :: LocalChar(e[k]))
      && at + 1 < dot
      && (forall k | at < k < dot :: DomainChar(e[k]))
      && |e| - dot - 1 <= 4
      && (forall k | dot < k < |e| :: IsAsciiLetter(e[k]))
  }

  datatype EmailCheck = EmailCheck(ok: bool, flagged: bool)

  /** `validateEmail`: any non-empty address is accepted; one that does not have the expected shape only gets the warning icon. */
  function ValidateEmail(e: string): (r: EmailCheck)
    ensures r.ok <==> |e| > 0
    ensures r.flagged <==> |e| > 0 && !EmailShape(e)
  {
    EmailCheck(|e| > 0, |e| > 0 && !EmailShape(e))
  }

  lemma EmailShapeExamples()
    ensures EmailShape("a@b.com")
    ensures !EmailShape("not-an-email")
  {
    var e := "a@b.com";
    assert e[1] == '@' && e[3] == '.';
    assert forall k | 3 < k < |e| :: IsAsciiLetter(e[k]);
    var f := "not-an-email";
    assert '@' !in f;
  }

  // ---------------------------------------------------------------------------
  // The editor

  /** What the account list shows for the selected index, one value per typed field role. */
  datatype ModelView = ModelView(realName: Value, userName: Value, email: Value, administrator: Value, automaticLogin: Value)

  /** The editor: the selected index, the widget contents, and the roles staged for saving. */
  datatype Editor = Editor(
    index: Index,
    userName: string,
    realName: string,
    email: string,
    administrator: bool,
    automaticLogin: bool,
    staged: map<Role, Value>)


  /** Whether the cleaned real name is staged, and the widget text left behind (a refused blank name is cleared). */
  predicate NameStaged(ed: Editor, view: ModelView) {
    CleanName(ed.realName) != AsString(view.realName) && ValidateName(CleanName(ed.realName))
  }

  predicate NameCleared(ed: Editor, view: ModelView) {
    CleanName(ed.realName) != AsString(view.realName) && !ValidateName(CleanName(ed.realName))
  }

  predicate UsernameStaged(ed: Editor, view: ModelView, existing: set<string>) {
    CleanUsername(ed.userName) != AsString(view.userName) && ValidateUsername(CleanUsername(ed.userName), existing).ok
  }

  predicate EmailStaged(ed: Editor, view: ModelView) {
    CleanEmail(ed.email) != AsString(view.email) && ValidateEmail(CleanEmail(ed.email)).ok
  }

  /** The roles the editor ever stages. */
  const StagedRoles: set<Role> := {RealName, Username, Email, Administrator, AutomaticLogin, Face, Password}

  /** Whether `hasChanged` puts role `k` in the map it builds. */
  predicate Wanted(ed: Editor, view: ModelView, existing: set<string>, k: Role) {
    match k
    case RealName => NameStaged(ed, view)
    case Username => UsernameStaged(ed, view, existing)
    case Email => EmailStaged(ed, view)
    case Administrator => ed.administrator != AsBool(view.administrator)
    case AutomaticLogin => ed.automaticLogin != AsBool(view.automaticLogin)
    case Face => Face in ed.staged
    case Password => Password in ed.staged
    case _ => false
  }

  /** The value `hasChanged` stages for role `k`. */
  function StagedValue(ed: Editor, k: Role): Value {
    match k
    case RealName => Str(CleanName(ed.realName))
    case Username => Str(CleanUsername(ed.userName))
    case Email => Str(CleanEmail(ed.email))
    case Administrator => Flag(ed.administrator)
    case AutomaticLogin => Flag(ed.automaticLogin)
    case Face => if Face in ed.staged then ed.staged[Face] else Empty
    case Password => if Password in ed.staged then ed.staged[Password] else Empty
    case _ => Empty
  }

  /**
   The map `hasChanged` builds from scratch. A text field is staged when its
   cleaned value differs from the model's and passes validation; a check box
   when it differs from the model's; an avatar or password staged before is
   carried over.
   */
  function Staging(ed: Editor, view: ModelView, existing: set<string>): (m: map<Role, Value>)
    ensures m.Keys <= StagedRoles
    ensures RealName in m <==> NameStaged(ed, view)
    ensures Username in m <==> UsernameStaged(ed, view, existing)
    ensures Email in m <==> EmailStaged(ed, view)
    ensures Administrator in m <==> ed.administrator != AsBool(view.administrator)
    ensures AutomaticLogin in m <==> ed.automaticLogin != AsBool(view.automaticLogin)
    ensures Face in m <==> Face in ed.staged
    ensures Password in m <==> Password in ed.staged
  {
    var m := map k | k in StagedRoles && Wanted(ed, view, existing, k) :: StagedValue(ed, k);
    assert forall k :: k in m <==> k in StagedRoles && Wanted(ed, view, existing, k);
    m
  }

  /** The values in the staging map: the cleaned texts, the check-box states, and the avatar and password carried over. */
  lemma StagingValues(ed: Editor, view: ModelView, existing: set<string>)
    ensures var m := Staging(ed, view, existing);
      && (RealName in m ==> m[RealName] == Str(ed.realName))
      && (Username in m ==> m[Username] == Str(CleanUsername(ed.userName)))
      && (Email in m ==> m[Email] == Str(CleanEmail(ed.email)))
      && (Administrator in m ==> m[Administrator] == Flag(ed.administrator))
      && (AutomaticLogin in m ==> m[AutomaticLogin] == Flag(ed.automaticLogin))
      && (Face in m ==> m[Face] == ed.staged[Face])
      && (Password in m ==> m[Password] == ed.staged[Password])
  {
  }

  /** `hasChanged`: stage the changed fields and write the cleaned user name and address back to their fields; a refused blank real name is cleared. */
  function HasChanged(ed: Editor, view: ModelView, existing: set<string>): (r: Editor)
    ensures r.index == ed.index && r.administrator == ed.administrator && r.automaticLogin == ed.automaticLogin
    ensures r.userName == CleanUsername(ed.userName) && r.email == CleanEmail(ed.email)
    ensures r.realName == if NameCleared(ed, view) then "" else ed.realName
    ensures r.staged == Staging(ed, view, existing)
  {
    ed.(userName := CleanUsername(ed.userName),
        realName := if NameCleared(ed, view) then "" else CleanName(ed.realName),
        email := CleanEmail(ed.email),
        staged := Staging(ed, view, existing))
  }

  /** One role of the second staging pass agrees with the first. */
  lemma SecondPassAgrees(ed: Editor, view: ModelView, existing: set<string>, k: Role)
    requires CleanUsername(CleanUsername(ed.userName)) == CleanUsername(ed.userName)
    requires CleanEmail(CleanEmail(ed.email)) == CleanEmail(ed.email)
    requires !NameCleared(ed, view)
    ensures var r := HasChanged(ed, view, existing);
      Wanted(r, view, existing, k) == Wanted(ed, view, existing, k) && StagedValue(r, k) == StagedValue(ed, k)
  {
    var r := HasChanged(ed, view, existing);
    match k
    case RealName => assert r.realName == ed.realName;
    case Username => assert CleanUsername(r.userName) == r.userName;
    case Email => assert CleanEmail(r.email) == r.email;
    case Face => assert Face in r.staged <==> Face in ed.staged;
    case Password => assert Password in r.staged <==> Password in ed.staged;
    case _ =>
  }

  lemma SameWantsSameStaging(a: Editor, b: Editor, view: ModelView, existing: set<string>)
    requires forall k :: Wanted(a, view, existing, k) == Wanted(b, view, existing, k) && StagedValue(a, k) == StagedValue(b, k)
    ensures Staging(a, view, existing) == Staging(b, view, existing)
  {
  }

  /**
   Running the staging step again with the same model values changes nothing,
   provided the user name does not start with a space and the real name is not
   a refused blank.
   */
  lemma HasChangedIdempotent(ed: Editor, view: ModelView, existing: set<string>)
    requires |ed.userName| == 0 || ed.userName[0] != ' '
    requires !NameCleared(ed, view)
    ensures HasChanged(HasChanged(ed, view, existing), view, existing) == HasChanged(ed, view, existing)
  {
    var r := HasChanged(ed, view, existing);
    CleanUsernameIdempotent(ed.userName);
    CleanEmailIdempotent(ed.email);
    forall k
      ensures Wanted(r, view, existing, k) == Wanted(ed, view, existing, k) && StagedValue(r, k) == StagedValue(ed, k)
    {
      SecondPassAgrees(ed, view, existing, k);
    }
    SameWantsSameStaging(r, ed, view, existing);
    assert !NameCleared(r, view);
  }

  /** A refused blank name is cleared, and the next pass stages the empty name in its place. */
  lemma BlankNameStagedOnSecondPass(ed: Editor, view: ModelView, existing: set<string>)
    requires ed.realName == " " && AsString(view.realName) == "Ann"
    ensures RealName !in HasChanged(ed, view, existing).staged
    ensures HasChanged(ed, view, existing).realName == ""
    ensures HasChanged(HasChanged(ed, view, existing), view, existing).staged[RealName] == Str("")
  {
    assert IsSpace(ed.realName[0]);
  }

  /** A leading space in the user name makes a second pass lower the new first letter. */
  lemma LeadingSpaceChangesOnSecondPass(ed: Editor, view: ModelView, existing: set<string>)
    requires ed.userName == " Ab"
    ensures HasChanged(ed, view, existing).userName == "Ab"
    ensures HasChanged(HasChanged(ed, view, existing), view, existing).userName == "ab"
  {
    CleanUsernameLeadingSpace();
  }

  /** `loadFromModel`: the fields show what the model holds for the index. */
  function LoadFromModel(ed: Editor, view: ModelView): (r: Editor)
    ensures r.index == ed.index && r.staged == ed.staged
    ensures r.realName == AsString(view.realName) && (view.realName.Str? ==> Str(r.realName) == view.realName)
    ensures r.userName == AsString(view.userName) && (view.userName.Str? ==> Str(r.userName) == view.userName)
    ensures r.email == AsString(view.email) && (view.email.Str? ==> Str(r.email) == view.email)
    ensures view == ModelView(Empty, Empty, Empty, Empty, Empty) ==>
      r.realName == "" && r.userName == "" && r.email == "" && !r.administrator && !r.automaticLogin
    ensures r.administrator == AsBool(view.administrator) && r.automaticLogin == AsBool(view.automaticLogin)
  {
    ed.(userName := AsString(view.userName), realName := AsString(view.realName), email := AsString(view.email),
        administrator := AsBool(view.administrator), automaticLogin := AsBool(view.automaticLogin))
  }

  /** `setModelIndex`: an invalid or unchanged index is ignored; a new one drops what was staged and reloads the fields. */
  function SetModelIndex(ed: Editor, idx: Index, view: ModelView): (r: Editor)
    ensures !idx.At? || idx == ed.index ==> r == ed
    ensures idx.At? && idx != ed.index ==> r.index == idx && r.staged == map[] && r == LoadFromModel(r, view)
  {
    if !idx.At? || idx == ed.index then ed
    else LoadFromModel(ed.(index := idx, staged := map[]), view)
  }

  /** Right after selecting a row whose stored user name and address are already in clean form, nothing is staged. */
  lemma FreshSelectionStagesNothing(ed: Editor, idx: Index, view: ModelView, existing: set<string>)
    requires idx.At? && idx != ed.index
    requires CleanUsername(AsString(view.userName)) == AsString(view.userName)
    requires CleanEmail(AsString(view.email)) == AsString(view.email)
    ensures HasChanged(SetModelIndex(ed, idx, view), view, existing).staged == map[]
  {
    var r := HasChanged(SetModelIndex(ed, idx, view), view, existing);
    assert r.staged.Keys == {};
  }

  /** `clearAvatar`: an empty avatar path is staged. */
  function ClearAvatar(ed: Editor): (r: Editor)
    ensures r.staged == ed.staged[Face := Str("")]
    ensures r == ed.(staged := r.staged)
  {
    ed.(staged := ed.staged[Face := Str("")])
  }

  /** `avatarCreated`: the path of the scaled picture is staged. */
  function AvatarCreated(ed: Editor, avatarPath: string): (r: Editor)
    ensures r.staged == ed.staged[Face := Str(avatarPath)]
    ensures r == ed.(staged := r.staged)
  {
    ed.(staged := ed.staged[Face := Str(avatarPath)])
  }

  /** `changePassword`: the password entered in the dialog is staged; a cancelled dialog stages nothing. */
  function ChangePassword(ed: Editor, entered: Option<string>): (r: Editor)
    ensures entered.None? ==> r == ed
    ensures entered.Some? ==> r == ed.(staged := ed.staged[Password := Str(entered.value)])
  {
    match entered
    case None => ed
    case Some(pw) => ed.(staged := ed.staged[Password := Str(pw)])
  }

  /** A staged avatar or password survives the next staging pass. */
  lemma StagedExtrasSurvive(ed: Editor, view: ModelView, existing: set<string>, pw: string, avatarPath: string)
    ensures var r := HasChanged(ChangePassword(AvatarCreated(ed, avatarPath), Some(pw)), view, existing);
      r.staged[Face] == Str(avatarPath) && r.staged[Password] == Str(pw)
  {
    var staged := ChangePassword(AvatarCreated(ed, avatarPath), Some(pw));
    assert staged.staged[Face] == Str(avatarPath) && staged.staged[Password] == Str(pw);
    StagingValues(staged, view, existing);
  }

  // ---------------------------------------------------------------------------
  // Saving

  datatype Write = Write(role: Role, value: Value)

  /** The outcome of `save`: its answer, the writes sent in order, the editor after it, and the avatar file to move in place (file I/O not modelled). */
  datatype Saved = Saved(ok: bool, writes: seq<Write>, editor: Editor, avatarMove: Option<string>)

  /** The five field writes every save sends, in order, from the widget contents. */
  function FieldWrites(ed: Editor): (ws: seq<Write>)
    ensures |ws| == 5
    ensures ws[0].role == Username && ws[1].role == RealName && ws[2].role == Email
    ensures ws[3].role == Administrator && ws[4].role == AutomaticLogin
    ensures ws[0].value == Str(ed.userName) && ws[1].value == Str(ed.realName) && ws[2].value == Str(ed.email)
    ensures ws[3].value == Flag(ed.administrator) && ws[4].value == Flag(ed.automaticLogin)
  {
    [Write(Username, Str(ed.userName)), Write(RealName, Str(ed.realName)), Write(Email, Str(ed.email)),
     Write(Administrator, Flag(ed.administrator)), Write(AutomaticLogin, Flag(ed.automaticLogin))]
  }

  /**
   `save`: nothing staged answers false and sends nothing. Otherwise every field
   is written, staged or not, then the password when one is staged; the staged
   map is cleared and the answer is true whatever the writes returned.
   */
  function Save(ed: Editor): (r: Saved)
    ensures |ed.staged| == 0 ==> !r.ok && r.writes == [] && r.editor == ed && r.avatarMove.None?
    ensures |ed.staged| > 0 ==>
      && r.ok
      && r.editor == ed.(staged := map[])
      && |r.writes| == (if Password in ed.staged then 6 else 5)
      && r.writes[..5] == FieldWrites(ed)
      && (Password in ed.staged ==> r.writes[5] == Write(Password, ed.staged[Password]))
      && (r.avatarMove.Some? <==> Face in ed.staged)
      && (Face in ed.staged ==> r.avatarMove.value == AsString(ed.staged[Face]))
    ensures forall w | w in r.writes :: w.role != Face && w.role != Logged && w.role != Created
  {
    if |ed.staged| == 0 then Saved(false, [], ed, None)
    else
      var password := if Password in ed.staged then [Write(Password, ed.staged[Password])] else [];
      var avatar := if Face in ed.staged then Some(AsString(ed.staged[Face])) else None;
      Saved(true, FieldWrites(ed) + password, ed.(staged := map[]), avatar)
  }

  /** A cleared avatar survives the staging pass, so the next save answers true and moves the empty path into place. */
  lemma ClearedAvatarIsSaved(ed: Editor, view: ModelView, existing: set<string>)
    ensures var saved := Save(HasChanged(ClearAvatar(ed), view, existing));
      saved.ok && saved.avatarMove == Some("") && saved.editor.staged == map[]
  {
    StagingValues(ClearAvatar(ed), view, existing);
  }
}

=== FILE: accountmodel.dfy ===
/**
 The account list model: an ordered list of account object paths, a map from
 path to account proxy (the permanent "new-user" draft row maps to no proxy),
 a map from path to "logged in", and the draft of a new account. Account
 fields are never copied locally; every read goes to the remote store.
 */
module AccountModel {
  import opened Values
  import opened Seqs
  import opened Remote

  /** Key of the permanent draft row; no object path can equal it. */
  const NewUser: string := "new-user"

  /** The number of roles the draft must hold before an account is created. */
  const DraftRoles: nat := 5

  datatype Cache = Cache(
    rows: seq<string>,                        // the row order of paths
    users: map<string, Option<ObjectPath>>,   // path to proxy; the draft row has none
    logged: map<string, bool>,                // path to "has an open session"
    draft: map<Role, Value>,                  // roles staged for the account to create
    subscribed: bool)                         // whether the change notifications are connected

  /** The cache of a model whose account listing failed. */
  const Unloaded := Cache([], map[], map[], map[], false)

  /** The outcome the service gives to the one blocking call a write makes. */
  datatype Reply = Reply(ok: bool, newAccount: NewAccount)

  /** The result of a write: new state, its boolean answer, the calls made and the rows reported changed. */
  datatype Step = Step(cache: Cache, remote: Store, ok: bool, calls: seq<Call>, changed: seq<nat>)

  lemma PathIsNotNewUser(p: ObjectPath)
    ensures p != NewUser
  {
    assert p[0] == '/' && NewUser[0] == 'n';
  }

  /** Row list, proxy map and logged map hold the same keys, and the row list is as long as the maps, so it holds each key once. */
  predicate InStep(c: Cache) {
    && Elems(c.rows) == c.users.Keys
    && c.logged.Keys == c.users.Keys
    && |c.rows| == |c.users|
  }

  lemma RowsDistinct(c: Cache)
    requires InStep(c)
    ensures Distinct(c.rows)
  {
    assert |c.users.Keys| == |c.users|;
    CountedDistinct(c.rows);
  }

  /** Only the draft row lacks a proxy, and each proxy addresses the object named by its key. */
  predicate ProxiesMatch(c: Cache) {
    forall k | k in c.users ::
      if k == NewUser then c.users[k].None? else c.users[k].Some? && c.users[k].value == k
  }

  /** Once loaded the draft row is the last row; a model whose listing failed holds no row at all. */
  predicate DraftLast(c: Cache) {
    if c.subscribed then |c.rows| > 0 && c.rows[|c.rows| - 1] == NewUser else c.rows == []
  }

  predicate Inv(c: Cache) {
    InStep(c) && ProxiesMatch(c) && DraftLast(c)
  }

  function RowCount(c: Cache): nat {
    |c.users|
  }

  /** QAbstractListModel::index: rows outside the current count give an invalid index. */
  function IndexFor(c: Cache, row: int): (idx: Index)
    ensures idx.At? <==> 0 <= row < RowCount(c)
    ensures idx.At? ==> idx.row == row
  {
    if 0 <= row < RowCount(c) then At(row) else Invalid
  }

  predicate IsAccountRow(c: Cache, idx: Index)
    requires Inv(c)
  {
    idx.At? && idx.row < RowCount(c) && c.rows[idx.row] != NewUser
  }

  predicate IsDraftRow(c: Cache, idx: Index)
    requires Inv(c)
  {
    idx.At? && idx.row < RowCount(c) && c.rows[idx.row] == NewUser
  }

  lemma RowKeyIsKnown(c: Cache, row: nat)
    requires Inv(c) && row < |c.rows|
    ensures c.rows[row] in c.users
    ensures c.rows[row] != NewUser ==> c.users[c.rows[row]] == Some(c.rows[row])
    ensures c.rows[row] == NewUser ==> c.users[c.rows[row]] == None
  {
    assert c.rows[row] in Elems(c.rows);
  }

  /** The object path of an account row. */
  function RowObject(c: Cache, idx: Index): (p: ObjectPath)
    requires Inv(c) && IsAccountRow(c, idx)
    ensures p == c.rows[idx.row]
  {
    RowKeyIsKnown(c, idx.row);
    c.users[c.rows[idx.row]].value
  }

  // ---------------------------------------------------------------------------
  // Reads

  /** The value of a typed role for an account, read live from its record. */
  function AccountField(rec: AccountRecord, role: Role, loggedIn: Option<bool>): Value {
    match role
    case RealName => Str(rec.realName)
    case Username => Str(rec.userName)
    case Email => Str(rec.email)
    case Administrator => Flag(rec.accountType == 1)
    case AutomaticLogin => Flag(rec.automaticLogin)
    case Logged => if loggedIn.Some? then Flag(loggedIn.value) else Empty
    case _ => Empty
  }

  /**
   What an account row reads for a role: the record's names and e-mail, "type is 1"
   for Administrator, its automatic-login flag; the roles with no case read empty.
   */
  predicate DataOfAccount(rec: AccountRecord, role: Role, v: Value) {
    && (role == RealName ==> v == Str(rec.realName))
    && (role == Username ==> v == Str(rec.userName))
    && (role == Email ==> v == Str(rec.email))
    && (role == Administrator ==> v == Flag(rec.accountType == 1))
    && (role == AutomaticLogin ==> v == Flag(rec.automaticLogin))
    && (role == Face || role == Created || role == Password ==> v == Empty)
  }

  /** `data`: total on every index; the draft row has no typed field. */
  function Data(c: Cache, remote: Store, idx: Index, role: Role): (v: Value)
    requires Inv(c)
    ensures !idx.At? || idx.row >= RowCount(c) ==> v == Empty
    ensures IsDraftRow(c, idx) ==> v == Empty
    ensures v.Str? ==> role == RealName || role == Username || role == Email
    ensures v.Flag? ==> role == Administrator || role == AutomaticLogin || role == Logged
    ensures IsAccountRow(c, idx) && role == Logged ==> v == Flag(c.logged[c.rows[idx.row]])
    ensures IsAccountRow(c, idx) ==> DataOfAccount(Fetch(remote, RowObject(c, idx)), role, v)
  {
    if !idx.At? || idx.row >= RowCount(c) then Empty
    else
      var path := c.rows[idx.row];
      RowKeyIsKnown(c, idx.row);
      match c.users[path]
      case None => Empty
      case Some(obj) => AccountField(Fetch(remote, obj), role, if path in c.logged then Some(c.logged[path]) else None)
  }

  // ---------------------------------------------------------------------------
  // Writes

  /** The service call `setData` makes for a role, if any. */
  function FieldCall(obj: ObjectPath, role: Role, value: Value): (call: Option<Call>)
    ensures call.Some? <==> role in {RealName, Username, Email, Administrator, AutomaticLogin}
    ensures call.Some? ==> IsSetter(call.value) && call.value.obj == obj
  {
    match role
    case RealName => Some(SetRealName(obj, AsString(value)))
    case Username => Some(SetUserName(obj, AsString(value)))
    case Email => Some(SetEmail(obj, AsString(value)))
    case Administrator => Some(SetAccountType(obj, if AsBool(value) then 1 else 0))
    case AutomaticLogin => Some(SetAutomaticLogin(obj, AsBool(value)))
    case _ => None
  }

  /** `setData` on a row that has a proxy. */
  function SetAccountData(c: Cache, remote: Store, idx: Index, value: Value, role: Role, reply: Reply): (r: Step)
    requires Inv(c) && IsAccountRow(c, idx)
    ensures Inv(r.cache)
    ensures r.cache.rows == c.rows && r.cache.users == c.users && r.cache.draft == c.draft
    ensures r.ok <==> role == Face || role == Logged || (FieldCall(RowObject(c, idx), role, value).Some? && reply.ok)
    ensures !r.ok ==> r.cache == c && r.remote == remote && r.changed == []
    ensures r.ok ==> r.changed == [idx.row]
    ensures role != Logged ==> r.cache == c
    ensures role == Logged ==> r.cache.logged == c.logged[c.rows[idx.row] := AsBool(value)]
    ensures FieldCall(RowObject(c, idx), role, value).None? ==> r.calls == [] && r.remote == remote
    ensures FieldCall(RowObject(c, idx), role, value).Some? ==>
      var call := FieldCall(RowObject(c, idx), role, value).value;
      var user := Fetch(r.remote, RowObject(c, idx)).userName;
      && r.remote == (if reply.ok then Apply(remote, call) else remote)
      && r.calls == [call] + (if reply.ok && role == RealName then [UncacheUser(user), CacheUser(user)] else [])
    ensures CountCreates(r.calls) == 0
  {
    var obj := RowObject(c, idx);
    var path := c.rows[idx.row];
    if role == Face then
      Step(c, remote, true, [], [idx.row])
    else if role == Logged then
      RowKeyIsKnown(c, idx.row);
      Step(c.(logged := c.logged[path := AsBool(value)]), remote, true, [], [idx.row])
    else
      match FieldCall(obj, role, value)
      case None => Step(c, remote, false, [], [])
      case Some(call) =>
        if !reply.ok then Step(c, remote, false, [call], [])
        else
          var remote' := Apply(remote, call);
          var user := Fetch(remote', obj).userName;
          var recache := if role == RealName then [UncacheUser(user), CacheUser(user)] else [];
          NoCreates([call] + recache);
          Step(c, remote', true, [call] + recache, [idx.row])
  }

  /** QMap::operator[]: reading a missing key inserts it with an empty value. */
  function Touch(m: map<Role, Value>, k: Role): (r: map<Role, Value>)
    ensures r.Keys == m.Keys + {k}
    ensures forall j | j in m :: r[j] == m[j]
    ensures k !in m ==> r[k] == Empty
  {
    if k in m then m else m[k := Empty]
  }

  function DraftValue(m: map<Role, Value>, k: Role): Value {
    if k in m then m[k] else Empty
  }

  function CountCreates(calls: seq<Call>): nat {
    if |calls| == 0 then 0 else (if calls[0].CreateUser? then 1 else 0) + CountCreates(calls[1..])
  }

  lemma {:induction false} NoCreates(calls: seq<Call>)
    requires forall i | 0 <= i < |calls| :: !calls[i].CreateUser?
    ensures CountCreates(calls) == 0
  {
    if |calls| > 0 {
      NoCreates(calls[1..]);
    }
  }

  lemma OneCreate(calls: seq<Call>)
    requires |calls| > 0 && calls[0].CreateUser?
    requires forall i | 1 <= i < |calls| :: !calls[i].CreateUser?
    ensures CountCreates(calls) == 1
  {
    NoCreates(calls[1..]);
  }

  /** The CreateUser call the draft produces. */
  function CreateCall(draft: map<Role, Value>, accountType: int): Call {
    CreateUser(AsString(DraftValue(draft, Username)), AsString(DraftValue(draft, RealName)), accountType)
  }

  /** The record a successful creation leaves on the service: the draft's names, e-mail and automatic-login flag. */
  function CreatedRecord(draft: map<Role, Value>, accountType: int, uid: nat): AccountRecord {
    AccountRecord(uid, AsString(DraftValue(draft, Username)), AsString(DraftValue(draft, RealName)),
                  AsString(DraftValue(draft, Email)), accountType, AsBool(DraftValue(draft, AutomaticLogin)), "", false)
  }

  /** A refused CreateUser: the user name and real name were read with QMap::operator[], so they stay in the draft. */
  function CreateRefused(c: Cache, remote: Store, draft: map<Role, Value>, accountType: int): (r: Step)
    ensures r.cache == c.(draft := r.cache.draft) && r.remote == remote
    ensures !r.ok && r.changed == [] && r.calls == [CreateCall(draft, accountType)]
    ensures r.cache.draft.Keys == draft.Keys + {Username, RealName}
    ensures forall k | k in draft :: r.cache.draft[k] == draft[k]
    ensures Username !in draft ==> r.cache.draft[Username] == Empty
    ensures RealName !in draft ==> r.cache.draft[RealName] == Empty
  {
    var draft' := Touch(Touch(draft, Username), RealName);
    Step(c.(draft := draft'), remote, false, [CreateCall(draft, accountType)], [])
  }

  /** An accepted CreateUser: the new object gets the draft's automatic-login flag and e-mail (sent without waiting; the model lets them land) and the draft is cleared. */
  function CreateAccepted(c: Cache, remote: Store, draft: map<Role, Value>, accountType: int, made: NewAccount): (r: Step)
    ensures r.cache == c.(draft := map[])
    ensures r.ok && r.changed == []
    ensures r.calls == [CreateCall(draft, accountType),
                        SetAutomaticLogin(made.path, AsBool(DraftValue(draft, AutomaticLogin))),
                        SetEmail(made.path, AsString(DraftValue(draft, Email)))]
    ensures CountCreates(r.calls) == 1
    ensures r.remote == remote[made.path := CreatedRecord(draft, accountType, made.uid)]
  {
    var create := CreateCall(draft, accountType);
    var obj := made.path;
    var created := remote[obj := AccountRecord(made.uid, create.userName, create.realName, "", accountType, false, "", false)];
    var login := SetAutomaticLogin(obj, AsBool(DraftValue(draft, AutomaticLogin)));
    var email := SetEmail(obj, AsString(DraftValue(draft, Email)));
    OneCreate([create, login, email]);
    Step(c.(draft := map[]), Apply(Apply(created, login), email), true, [create, login, email], [])
  }

  /** The CreateUser call of `newUserSetData` and what follows it. */
  function CreateAccount(c: Cache, remote: Store, draft: map<Role, Value>, accountType: int, reply: Reply): (r: Step)
    ensures r.ok == reply.ok && r.changed == []
    ensures !reply.ok ==> r == CreateRefused(c, remote, draft, accountType)
    ensures reply.ok ==> r == CreateAccepted(c, remote, draft, accountType, reply.newAccount)
  {
    if reply.ok then CreateAccepted(c, remote, draft, accountType, reply.newAccount)
    else CreateRefused(c, remote, draft, accountType)
  }

  /** The invariant does not look at the draft. */
  lemma InvIgnoresDraft(c: Cache, draft: map<Role, Value>)
    requires Inv(c)
    ensures Inv(c.(draft := draft))
  {
  }

  /** `newUserSetData`: stage one role of the draft; the staging that brings it to five roles creates the account, typed by the value just staged. */
  function NewUserSetData(c: Cache, remote: Store, value: Value, role: Role, reply: Reply): (r: Step)
    requires Inv(c)
    ensures Inv(r.cache) && r.cache == c.(draft := r.cache.draft)
    ensures r.changed == []
    ensures |c.draft[role := value]| < DraftRoles ==>
      r.ok && r.calls == [] && r.remote == remote && r.cache.draft == c.draft[role := value]
    ensures |c.draft[role := value]| >= DraftRoles ==>
      r == CreateAccount(c, remote, c.draft[role := value], if AsBool(value) then 1 else 0, reply)
  {
    var draft := c.draft[role := value];
    if |draft| < DraftRoles then
      InvIgnoresDraft(c, draft);
      Step(c.(draft := draft), remote, true, [], [])
    else
      var r := CreateAccount(c, remote, draft, if AsBool(value) then 1 else 0, reply);
      InvIgnoresDraft(c, r.cache.draft);
      r
  }

  /** `setData`: false on a bad index; the draft row stages into the draft; account rows write through. */
  function SetData(c: Cache, remote: Store, idx: Index, value: Value, role: Role, reply: Reply): (r: Step)
    requires Inv(c)
    ensures Inv(r.cache)
    ensures r.cache.rows == c.rows && r.cache.users == c.users
    ensures !idx.At? || idx.row >= RowCount(c) ==> r == Step(c, remote, false, [], [])
    ensures IsDraftRow(c, idx) ==> r == NewUserSetData(c, remote, value, role, reply)
    ensures IsAccountRow(c, idx) ==> r == SetAccountData(c, remote, idx, value, role, reply)
  {
    if !idx.At? || idx.row >= RowCount(c) then Step(c, remote, false, [], [])
    else
      RowKeyIsKnown(c, idx.row);
      match c.users[c.rows[idx.row]]
      case None => NewUserSetData(c, remote, value, role, reply)
      case Some(_) => SetAccountData(c, remote, idx, value, role, reply)
  }

  /** A successful write of a field role on an account row reads back as written; Administrator goes out as 1/0 and comes back as "type is 1". */
  lemma SetDataRoundTrip(c: Cache, remote: Store, idx: Index, value: Value, role: Role, reply: Reply)
    requires Inv(c) && IsAccountRow(c, idx) && RowObject(c, idx) in remote && reply.ok
    requires role in {RealName, Username, Email, Administrator, AutomaticLogin}
    ensures var r := SetData(c, remote, idx, value, role, reply);
      r.ok
      && Data(r.cache, r.remote, idx, role)
         == (if role in {Administrator, AutomaticLogin} then Flag(AsBool(value)) else Str(AsString(value)))
  {
  }

  /** A failed service call leaves every local and remote field as it was and reports no change. */
  lemma SetDataFailureChangesNothing(c: Cache, remote: Store, idx: Index, value: Value, role: Role, reply: Reply, other: Role)
    requires Inv(c) && IsAccountRow(c, idx) && !reply.ok
    requires role in {RealName, Username, Email, Administrator, AutomaticLogin}
    ensures var r := SetData(c, remote, idx, value, role, reply);
      !r.ok && r.changed == [] && r.cache == c && r.remote == remote
      && Data(r.cache, r.remote, idx, other) == Data(c, remote, idx, other)
  {
  }

  // ---------------------------------------------------------------------------
  // Row bookkeeping

  /** `addAccountToCache`: insert at `pos` (append when `pos` is -1), map the path and mark it not logged. */
  function AddToCache(c: Cache, key: string, proxy: Option<ObjectPath>, pos: int): (r: Cache)
    requires pos <= |c.rows|
    ensures |r.rows| == |c.rows| + 1
    ensures pos > -1 ==> r.rows[pos] == key && r.rows[..pos] == c.rows[..pos] && r.rows[pos + 1..] == c.rows[pos..]
    ensures pos <= -1 ==> r.rows[..|c.rows|] == c.rows && r.rows[|c.rows|] == key
    ensures r.users == c.users[key := proxy] && r.logged == c.logged[key := false]
    ensures r.draft == c.draft && r.subscribed == c.subscribed
  {
    var at := if pos > -1 then pos else |c.rows|;
    c.(rows := InsertAt(c.rows, at, key), users := c.users[key := proxy], logged := c.logged[key := false])
  }

  /** With no duplicate guard in the source, the three containers stay in step only when the key is new. */
  lemma AddToCacheInStep(c: Cache, key: string, proxy: Option<ObjectPath>, pos: int)
    requires pos <= |c.rows| && InStep(c) && key !in c.users
    ensures InStep(AddToCache(c, key, proxy, pos))
    ensures RowCount(AddToCache(c, key, proxy, pos)) == RowCount(c) + 1
  {
    AddedRowKeys(c, key, proxy, pos);
    AddedCount(c, key, proxy, pos);
  }

  /** The inserted row adds exactly the new key to the row list's elements. */
  lemma AddedRowKeys(c: Cache, key: string, proxy: Option<ObjectPath>, pos: int)
    requires pos <= |c.rows| && InStep(c)
    ensures Elems(AddToCache(c, key, proxy, pos).rows) == AddToCache(c, key, proxy, pos).users.Keys
  {
    assert AddToCache(c, key, proxy, pos).rows == InsertAt(c.rows, if pos > -1 then pos else |c.rows|, key);
  }

  /** A new key makes both maps one entry larger, as the row list is one row longer. */
  lemma AddedCount(c: Cache, key: string, proxy: Option<ObjectPath>, pos: int)
    requires pos <= |c.rows| && InStep(c) && key !in c.users
    ensures var r := AddToCache(c, key, proxy, pos);
      |r.users| == |c.users| + 1 && |r.rows| == |r.users| && r.logged.Keys == r.users.Keys
  {
  }

  /** `removeAccount`: drop the path from the row list and both maps. */
  function RemoveAccount(c: Cache, path: string): (r: Cache)
    requires InStep(c) && path in c.users
    ensures InStep(r)
    ensures path !in r.users && r.users == c.users - {path} && r.logged == c.logged - {path}
    ensures 0 <= IndexOf(c.rows, path) && r.rows == c.rows[..IndexOf(c.rows, path)] + c.rows[IndexOf(c.rows, path) + 1..]
    ensures RowCount(r) == RowCount(c) - 1
    ensures r.draft == c.draft && r.subscribed == c.subscribed
  {
    assert path in Elems(c.rows);
    assert |c.users.Keys| == |c.users|;
    RemoveAllCount(c.rows, path);
    RowsDistinct(c);
    RemoveAllOnce(c.rows, path);
    c.(rows := RemoveAll(c.rows, path), users := c.users - {path}, logged := c.logged - {path})
  }

  // ---------------------------------------------------------------------------
  // Initial load

  /** An account the initial scan admits: its object answers and it is not a system account. */
  predicate Admitted(remote: Store, p: ObjectPath) {
    p in remote && !remote[p].systemAccount
  }

  /** `addAccount`: an admitted account goes to row 0 when it is the caller's own, to the end otherwise. */
  function AddAccount(c: Cache, remote: Store, p: ObjectPath, selfUid: nat): (r: Cache)
    ensures !Admitted(remote, p) ==> r == c
    ensures Admitted(remote, p) ==> r.users == c.users[p := Some(p)] && r.logged == c.logged[p := false]
    ensures Admitted(remote, p) && remote[p].uid == selfUid ==> r.rows == [p] + c.rows
    ensures Admitted(remote, p) && remote[p].uid != selfUid ==> r.rows == c.rows + [p]
    ensures r.draft == c.draft && r.subscribed == c.subscribed
  {
    if !Admitted(remote, p) then c
    else if Fetch(remote, p).uid == selfUid then
      var r := AddToCache(c, p, Some(p), 0);
      assert r.rows == [p] + c.rows by {
        assert r.rows == r.rows[..0] + [r.rows[0]] + r.rows[1..];
      }
      r
    else AddToCache(c, p, Some(p), -1)
  }

  /**
   Feed the listing, in order, through `addAccount`. The contract here only
   carries what the constructor needs from the fold; the rows it builds are
   stated by `LoadOrder` and the maps by `LoadMaps`.
   */
  function LoadAccounts(remote: Store, listing: seq<ObjectPath>, selfUid: nat): (c: Cache)
    ensures c.draft == map[] && !c.subscribed
    ensures forall k | k in c.logged :: !c.logged[k]
    decreases |listing|
  {
    if |listing| == 0 then Unloaded
    else AddAccount(LoadAccounts(remote, listing[..|listing| - 1], selfUid), remote, listing[|listing| - 1], selfUid)
  }

  /** The admitted accounts of the listing that belong to the caller, in listing order. */
  function OwnAccounts(remote: Store, listing: seq<ObjectPath>, selfUid: nat): seq<string>
    decreases |listing|
  {
    if |listing| == 0 then []
    else
      var p := listing[|listing| - 1];
      OwnAccounts(remote, listing[..|listing| - 1], selfUid) + (if Admitted(remote, p) && remote[p].uid == selfUid then [p] else [])
  }

  /** The other admitted accounts of the listing, in listing order. */
  function OtherAccounts(remote: Store, listing: seq<ObjectPath>, selfUid: nat): seq<string>
    decreases |listing|
  {
    if |listing| == 0 then []
    else
      var p := listing[|listing| - 1];
      OtherAccounts(remote, listing[..|listing| - 1], selfUid) + (if Admitted(remote, p) && remote[p].uid != selfUid then [p] else [])
  }

  function Reverse<T>(s: seq<T>): (r: seq<T>)
    ensures |r| == |s|
    ensures forall i | 0 <= i < |s| :: r[i] == s[|s| - 1 - i]
    decreases |s|
  {
    if |s| == 0 then [] else [s[|s| - 1]] + Reverse(s[..|s| - 1])
  }

  lemma PrependOwn(rows: seq<string>, own: seq<string>, others: seq<string>, p: string)
    requires rows == Reverse(own) + others
    ensures [p] + rows == Reverse(own + [p]) + others
  {
    assert (own + [p])[..|own|] == own;
  }

  lemma AppendOther(rows: seq<string>, own: seq<string>, others: seq<string>, p: string)
    requires rows == Reverse(own) + others
    ensures rows + [p] == Reverse(own) + (others + [p])
  {
  }

  /** Row order after the scan: the caller's own accounts first (each put at row 0, so the last one found leads), then the others in listing order. */
  lemma {:induction false} LoadOrder(remote: Store, listing: seq<ObjectPath>, selfUid: nat)
    ensures LoadAccounts(remote, listing, selfUid).rows
         == Reverse(OwnAccounts(remote, listing, selfUid)) + OtherAccounts(remote, listing, selfUid)
  {
    if |listing| > 0 {
      var xs := listing[..|listing| - 1];
      var p: ObjectPath := listing[|listing| - 1];
      LoadOrder(remote, xs, selfUid);
      var rows := LoadAccounts(remote, xs, selfUid).rows;
      var own := OwnAccounts(remote, xs, selfUid);
      var others := OtherAccounts(remote, xs, selfUid);
      assert own + [] == own && others + [] == others;
      if Admitted(remote, p) && remote[p].uid == selfUid {
        PrependOwn(rows, own, others, p);
      } else if Admitted(remote, p) {
        AppendOther(rows, own, others, p);
      }
    }
  }

  /** The paths of the listing that the scan admits. */
  function AdmittedPaths(remote: Store, listing: seq<ObjectPath>): (keys: set<string>)
    ensures forall k | k in keys :: k in listing
    decreases |listing|
  {
    if |listing| == 0 then {}
    else
      var p := listing[|listing| - 1];
      AdmittedPaths(remote, listing[..|listing| - 1]) + (if Admitted(remote, p) then {p} else {})
  }

  /** A path is admitted by the scan exactly when some position of the listing holds it and its object is admitted. */
  lemma {:induction false} AdmittedPathsMember(remote: Store, listing: seq<ObjectPath>, k: string)
    ensures k in AdmittedPaths(remote, listing) <==> exists i | 0 <= i < |listing| :: listing[i] == k && Admitted(remote, listing[i])
    decreases |listing|
  {
    if |listing| > 0 {
      var xs := listing[..|listing| - 1];
      AdmittedPathsMember(remote, xs, k);
      if exists i | 0 <= i < |listing| :: listing[i] == k && Admitted(remote, listing[i]) {
        var i :| 0 <= i < |listing| && listing[i] == k && Admitted(remote, listing[i]);
        if i < |xs| {
          assert xs[i] == listing[i];
        }
      }
      if exists i | 0 <= i < |xs| :: xs[i] == k && Admitted(remote, xs[i]) {
        var i :| 0 <= i < |xs| && xs[i] == k && Admitted(remote, xs[i]);
        assert listing[i] == xs[i];
      }
    }
  }

  /** Every mapped path has its own proxy and no open session. */
  predicate FreshlyLoaded(c: Cache) {
    forall k | k in c.users :: c.users[k] == Some(k) && k in c.logged && !c.logged[k]
  }

  /** One step of the scan on a path not seen before keeps the containers in step and adds the path exactly when it is admitted. */
  lemma AddAccountStep(c: Cache, remote: Store, p: ObjectPath, selfUid: nat)
    requires InStep(c) && p !in c.users
    ensures var r := AddAccount(c, remote, p, selfUid);
      InStep(r) && r.users.Keys == c.users.Keys + (if Admitted(remote, p) then {p} else {})
  {
    if Admitted(remote, p) {
      AddToCacheInStep(c, p, Some(p), if remote[p].uid == selfUid then 0 else -1);
    }
  }

  /** Every account the scan adds gets its own proxy and no open session. */
  lemma AddAccountFresh(c: Cache, remote: Store, p: ObjectPath, selfUid: nat)
    requires FreshlyLoaded(c)
    ensures FreshlyLoaded(AddAccount(c, remote, p, selfUid))
  {
  }

  /** The scan maps exactly the admitted paths, each to its own proxy and not logged in, and keeps the three containers in step. */
  lemma {:induction false} LoadMaps(remote: Store, listing: seq<ObjectPath>, selfUid: nat)
    requires Distinct(listing)
    ensures var c := LoadAccounts(remote, listing, selfUid);
      InStep(c) && FreshlyLoaded(c) && c.users.Keys == AdmittedPaths(remote, listing)
  {
    if |listing| > 0 {
      var xs := listing[..|listing| - 1];
      DistinctInit(listing);
      LoadMaps(remote, xs, selfUid);
      AddAccountStep(LoadAccounts(remote, xs, selfUid), remote, listing[|listing| - 1], selfUid);
      AddAccountFresh(LoadAccounts(remote, xs, selfUid), remote, listing[|listing| - 1], selfUid);
    }
  }

  /**
   The constructor: a failed listing leaves the model empty and unsubscribed;
   otherwise each admitted account is added and the draft row is appended last.
   */
  function Construct(remote: Store, listing: Option<seq<ObjectPath>>, selfUid: nat): (c: Cache)
    ensures listing.None? ==> c == Unloaded
    ensures listing.Some? ==>
      && c.subscribed
      && |c.rows| == |LoadAccounts(remote, listing.value, selfUid).rows| + 1
      && c.rows[..|c.rows| - 1] == LoadAccounts(remote, listing.value, selfUid).rows
      && c.rows[|c.rows| - 1] == NewUser
      && c.users == LoadAccounts(remote, listing.value, selfUid).users[NewUser := None]
      && c.logged == LoadAccounts(remote, listing.value, selfUid).logged[NewUser := false]
      && (forall k | k in c.logged :: !c.logged[k])
      && NewUser in c.users && c.users[NewUser] == None
      && c.draft == map[]
  {
    match listing
    case None => Unloaded
    case Some(paths) =>
      var loaded := LoadAccounts(remote, paths, selfUid);
      AddToCache(loaded, NewUser, None, -1).(subscribed := true)
  }

  /** No listed object path can collide with the draft row's key. */
  lemma DraftKeyNotAdmitted(remote: Store, listing: seq<ObjectPath>)
    ensures NewUser !in AdmittedPaths(remote, listing)
  {
  }

  /** A duplicate-free listing yields a model whose invariant holds, with the admitted accounts and the draft row as its keys. */
  lemma ConstructValid(remote: Store, listing: seq<ObjectPath>, selfUid: nat)
    requires Distinct(listing)
    ensures var c := Construct(remote, Some(listing), selfUid);
      Inv(c) && c.users.Keys == AdmittedPaths(remote, listing) + {NewUser}
  {
    LoadMaps(remote, listing, selfUid);
    DraftKeyNotAdmitted(remote, listing);
    var loaded := LoadAccounts(remote, listing, selfUid);
    AddToCacheInStep(loaded, NewUser, None, -1);
  }

  /** The rows after construction: the caller's own accounts, the others in listing order, the draft row last; so a caller with one account finds it on row 0. */
  lemma ConstructRows(remote: Store, listing: seq<ObjectPath>, selfUid: nat)
    ensures var c := Construct(remote, Some(listing), selfUid);
      && c.rows == Reverse(OwnAccounts(remote, listing, selfUid)) + OtherAccounts(remote, listing, selfUid) + [NewUser]
      && |c.rows| == |OwnAccounts(remote, listing, selfUid)| + |OtherAccounts(remote, listing, selfUid)| + 1
      && (|OwnAccounts(remote, listing, selfUid)| == 1 ==> c.rows[0] == OwnAccounts(remote, listing, selfUid)[0])
  {
    LoadOrder(remote, listing, selfUid);
    var loaded := LoadAccounts(remote, listing, selfUid);
    var c := Construct(remote, Some(listing), selfUid);
    assert c.rows == c.rows[..|loaded.rows|] + [NewUser];
  }

  // ---------------------------------------------------------------------------
  // Notifications

  /** `UserAdded`: a non-system account is inserted just before the draft row. There is no guard against a path already present. */
  function UserAdded(c: Cache, remote: Store, p: ObjectPath): (r: Cache)
    requires Inv(c)
    ensures !c.subscribed || Fetch(remote, p).systemAccount ==> r == c
    ensures c.subscribed && !Fetch(remote, p).systemAccount ==>
      && |r.rows| == |c.rows| + 1
      && r.rows[..|c.rows| - 1] == c.rows[..|c.rows| - 1]
      && r.rows[|c.rows| - 1] == p
      && r.rows[|c.rows|] == NewUser
      && r.users == c.users[p := Some(p)]
      && r.logged == c.logged[p := false]
      && r.draft == c.draft
    ensures r.subscribed == c.subscribed
    ensures p !in c.users ==> Inv(r)
    ensures p !in c.users && c.subscribed && !Fetch(remote, p).systemAccount ==> RowCount(r) == RowCount(c) + 1
  {
    if !c.subscribed || Fetch(remote, p).systemAccount then c
    else
      var r := AddToCache(c, p, Some(p), RowCount(c) - 1);
      PathIsNotNewUser(p);
      if p in c.users then r
      else
        AddToCacheInStep(c, p, Some(p), RowCount(c) - 1);
        r
  }

  /** A second add notification for a path already listed duplicates its row, and since the row count counts map entries the draft row then lies beyond it. */
  lemma UserAddedTwiceHidesDraftRow(c: Cache, remote: Store, p: ObjectPath)
    requires Inv(c) && c.subscribed && p in c.users && !Fetch(remote, p).systemAccount
    ensures var r := UserAdded(c, remote, p);
      && !Distinct(r.rows)
      && RowCount(r) == RowCount(c)
      && forall row | 0 <= row < RowCount(r) :: r.rows[row] != NewUser
  {
    var r := UserAdded(c, remote, p);
    var n := |c.rows|;
    RowsDistinct(c);
    DistinctInit(c.rows);
    var i := IndexOf(c.rows, p);
    PathIsNotNewUser(p);
    assert r.rows[..n - 1] == c.rows[..n - 1];
    assert r.rows[i] == p;
    forall row | 0 <= row < RowCount(r)
      ensures r.rows[row] != NewUser
    {
      if row < n - 1 {
        assert r.rows[row] == c.rows[..n - 1][row];
      }
    }
  }

  lemma ListedIsKnown(c: Cache, p: string)
    requires InStep(c) && p in c.rows
    ensures p in c.users
  {
    assert p in Elems(c.rows);
  }

  /** Removing an account path (never the draft row) keeps the invariant. */
  lemma RemoveAccountKeepsInv(c: Cache, p: string)
    requires Inv(c) && p in c.users && p != NewUser
    ensures Inv(RemoveAccount(c, p))
    ensures DeletedRow(c, p, RemoveAccount(c, p))
  {
    var r := RemoveAccount(c, p);
    var i := IndexOf(c.rows, p);
    assert i != |c.rows| - 1;
    DropKeepsLast(c.rows, i);
  }

  /** `UserDeleted`: an unknown path changes nothing; a known one leaves all three containers, the other rows keeping their order. */
  function UserDeleted(c: Cache, p: ObjectPath): (r: Cache)
    requires Inv(c)
    ensures Inv(r)
    ensures !c.subscribed || p !in c.rows ==> r == c
    ensures c.subscribed && p in c.rows ==> DeletedRow(c, p, r)
  {
    if !c.subscribed || p !in c.rows then c
    else
      ListedIsKnown(c, p);
      PathIsNotNewUser(p);
      RemoveAccountKeepsInv(c, p);
      RemoveAccount(c, p)
  }

  /** `r` is `c` without the row, map entries and login flag of `p`, which was not the draft row. */
  predicate DeletedRow(c: Cache, p: string, r: Cache) {
    var i := IndexOf(c.rows, p);
    && 0 <= i < |c.rows| - 1
    && r.rows == c.rows[..i] + c.rows[i + 1..]
    && r.users == c.users - {p}
    && r.logged == c.logged - {p}
    && RowCount(r) == RowCount(c) - 1
    && r.draft == c.draft
  }

  /** `Changed`: the index of the row to report as changed; nothing else happens. */
  function ChangedIndex(c: Cache, p: ObjectPath): (idx: Index)
    requires Inv(c)
    ensures idx.At? <==> p in c.rows
    ensures idx.At? ==> idx.row < RowCount(c) && c.rows[idx.row] == p
  {
    IndexFor(c, IndexOf(c.rows, p))
  }

  predicate HasUid(c: Cache, remote: Store, k: string, uid: nat) {
    k in c.users && c.users[k].Some? && Fetch(remote, c.users[k].value).uid == uid
  }

  function ScanForUid(c: Cache, remote: Store, uid: nat, i: nat): (path: string)
    requires Inv(c) && i <= |c.rows|
    ensures path == "" <==> forall j | i <= j < |c.rows| :: !HasUid(c, remote, c.rows[j], uid)
    ensures path != "" ==> HasUid(c, remote, path, uid)
    decreases |c.rows| - i
  {
    if i == |c.rows| then ""
    else if HasUid(c, remote, c.rows[i], uid) then
      RowKeyIsKnown(c, i);
      c.rows[i]
    else ScanForUid(c, remote, uid, i + 1)
  }

  /** `accountPathForUid`: a path whose proxy reports `uid`, or the empty path when no proxy does. The hash the source walks has no fixed order; the model walks the rows. */
  function AccountPathForUid(c: Cache, remote: Store, uid: nat): (path: string)
    requires Inv(c)
    ensures path == "" <==> forall k | k in c.users :: !HasUid(c, remote, k, uid)
    ensures path != "" ==> HasUid(c, remote, path, uid) && path in c.rows
  {
    var path := ScanForUid(c, remote, uid, 0);
    if path == "" then
      assert forall k | k in c.users :: !HasUid(c, remote, k, uid) by {
        forall k | k in c.users
          ensures !HasUid(c, remote, k, uid)
        {
          assert k in Elems(c.rows);
          var j :| 0 <= j < |c.rows| && c.rows[j] == k;
        }
      }
      path
    else
      assert path in Elems(c.rows);
      path
  }

  /** No call reaches the service from the Logged branch of `setData`. */
  const NoReply := Reply(false, NewAccount("/", 0))

  /** `userLogged`: record the session state of the account with `uid`; an unknown uid resolves to row -1 and changes nothing. */
  function UserLogged(c: Cache, remote: Store, uid: nat, isLogged: bool): (r: Cache)
    requires Inv(c)
    ensures Inv(r)
    ensures r.rows == c.rows && r.users == c.users && r.draft == c.draft
    ensures var path := AccountPathForUid(c, remote, uid);
      if c.subscribed && path != "" then r.logged == c.logged[path := isLogged] else r == c
  {
    if !c.subscribed then c
    else
      var path := AccountPathForUid(c, remote, uid);
      var idx := IndexFor(c, IndexOf(c.rows, path));
      assert path != "" ==> IsAccountRow(c, idx);
      SetData(c, remote, idx, Flag(isLogged), Logged, NoReply).cache
  }

  // ---------------------------------------------------------------------------
  // Deletion

  /** `after` is `before` without the objects of `uid`: every other object stays, with its record. */
  predicate UidRemoved(before: Store, after: Store, uid: nat) {
    && (forall p | p in after :: p in before && after[p] == before[p] && after[p].uid != uid)
    && (forall p | p in before && before[p].uid != uid :: p in after)
  }

  /** `removeAccountKeepingFiles`: one blocking DeleteUser by the row's uid; the rows stay until the removal notification arrives. The draft row has no proxy to ask, so the row must be an account row. */
  function RemoveAccountKeepingFiles(c: Cache, remote: Store, row: nat, keepFile: bool, ok: bool): (r: Step)
    requires Inv(c) && IsAccountRow(c, At(row))
    ensures r.cache == c && r.ok == ok && r.changed == []
    ensures r.calls == [DeleteUser(Fetch(remote, RowObject(c, At(row))).uid, keepFile)]
    ensures ok ==> RowObject(c, At(row)) !in r.remote && r.remote.Keys <= remote.Keys
    ensures ok ==> UidRemoved(remote, r.remote, Fetch(remote, RowObject(c, At(row))).uid)
    ensures !ok ==> r.remote == remote
  {
    var call := DeleteUser(Fetch(remote, RowObject(c, At(row))).uid, keepFile);
    Step(c, if ok then Apply(remote, call) else remote, ok, [call], [])
  }

  /** A successful deletion followed by the service's removal notification drops exactly that row. */
  lemma DeleteThenNotified(c: Cache, remote: Store, row: nat, keepFile: bool)
    requires Inv(c) && IsAccountRow(c, At(row))
    ensures var p := RowObject(c, At(row));
      var r := UserDeleted(RemoveAccountKeepingFiles(c, remote, row, keepFile, true).cache, p);
      r.rows == c.rows[..row] + c.rows[row + 1..] && p !in r.users && RowCount(r) == RowCount(c) - 1
  {
    var p := RowObject(c, At(row));
    assert RemoveAccountKeepingFiles(c, remote, row, keepFile, true).cache == c;
    RowsDistinct(c);
    IndexOfDistinct(c.rows, row);
    assert c.subscribed && p in c.rows;
    assert DeletedRow(c, p, UserDeleted(c, p));
  }
}

=== FILE: remote.dfy ===
/**
 The account service on the system bus, reduced to a store of account
 records keyed by object path and a log of the calls made to it. A call's
 success is decided by the caller of the model (an oracle); when it succeeds,
 its effect on the store is given by `Apply`.
 */
module Remote {

  /** A D-Bus object path: never empty and always starting with '/'. */
  type ObjectPath = p: string | |p| > 0 && p[0] == '/' witness "/"

  /** The properties of one account object as the service reports them. */
  datatype AccountRecord = AccountRecord(
    uid: nat,
    userName: string,
    realName: string,
    email: string,
    accountType: int,        // 1 is an administrator, 0 a standard user
    automaticLogin: bool,
    iconFile: string,
    systemAccount: bool)

  type Store = map<ObjectPath, AccountRecord>

  /** What a property read yields on an object the service does not know: the default value of every type. */
  const Unreachable := AccountRecord(0, "", "", "", 0, false, "", false)

  /** A live property read through a proxy for `p`. */
  function Fetch(s: Store, p: ObjectPath): (r: AccountRecord)
    ensures p in s ==> r == s[p]
    ensures p !in s ==> r == Unreachable
  {
    if p in s then s[p] else Unreachable
  }

  /** The calls the model makes on the service, in the order made. */
  datatype Call =
    | SetUserName(obj: ObjectPath, name: string)
    | SetRealName(obj: ObjectPath, name: string)
    | SetEmail(obj: ObjectPath, email: string)
    | SetAccountType(obj: ObjectPath, accountType: int)
    | SetAutomaticLogin(obj: ObjectPath, enabled: bool)
    | CreateUser(userName: string, realName: string, accountType: int)
    // The flag goes to the service exactly as the caller gives it, whatever the caller meant by it.
    | DeleteUser(uid: nat, filesFlag: bool)
    | UncacheUser(userName: string)
    | CacheUser(userName: string)

  /** The path and uid the service hands out should a CreateUser call succeed. */
  datatype NewAccount = NewAccount(path: ObjectPath, uid: nat)

  /** A setter on one account object. */
  predicate IsSetter(c: Call) {
    c.SetUserName? || c.SetRealName? || c.SetEmail? || c.SetAccountType? || c.SetAutomaticLogin?
  }

  /** The store after a successful call. CreateUser, UncacheUser and CacheUser leave the existing objects as they are. */
  function Apply(s: Store, c: Call): (r: Store)
    ensures IsSetter(c) ==> r.Keys == s.Keys
    ensures IsSetter(c) ==> forall p | p in s && p != c.obj :: r[p] == s[p]
    ensures c.SetUserName? && c.obj in s ==> r[c.obj] == s[c.obj].(userName := c.name)
    ensures c.SetRealName? && c.obj in s ==> r[c.obj] == s[c.obj].(realName := c.name)
    ensures c.SetEmail? && c.obj in s ==> r[c.obj] == s[c.obj].(email := c.email)
    ensures c.SetAccountType? && c.obj in s ==> r[c.obj] == s[c.obj].(accountType := c.accountType)
    ensures c.SetAutomaticLogin? && c.obj in s ==> r[c.obj] == s[c.obj].(automaticLogin := c.enabled)
    ensures c.DeleteUser? ==> forall p :: p in r <==> p in s && s[p].uid != c.uid
    ensures c.DeleteUser? ==> forall p | p in r :: r[p] == s[p]
    ensures c.CreateUser? || c.UncacheUser? || c.CacheUser? ==> r == s
  {
    match c
    case SetUserName(o, n) => if o in s then s[o := s[o].(userName := n)] else s
    case SetRealName(o, n) => if o in s then s[o := s[o].(realName := n)] else s
    case SetEmail(o, e) => if o in s then s[o := s[o].(email := e)] else s
    case SetAccountType(o, t) => if o in s then s[o := s[o].(accountType := t)] else s
    case SetAutomaticLogin(o, b) => if o in s then s[o := s[o].(automaticLogin := b)] else s
    case DeleteUser(uid, _) => map p | p in s && s[p].uid != uid :: s[p]
    case _ => s
  }
}

=== FILE: saving.dfy ===
/**
 The editor and the account list together: what the editor sees of the
 selected row, and a save played through `setData` write by write.
 */
module Saving {
  import opened Values
  import opened Remote
  import opened AccountModel
  import opened AccountInfo

  /** The typed values the account list holds for an index, as the editor reads them. */
  function ViewOf(c: Cache, remote: Store, idx: Index): (v: ModelView)
    requires Inv(c)
    ensures IsDraftRow(c, idx) ==> v == ModelView(Empty, Empty, Empty, Empty, Empty)
    ensures IsAccountRow(c, idx) ==>
      var rec := Fetch(remote, RowObject(c, idx));
      v == ModelView(Str(rec.realName), Str(rec.userName), Str(rec.email), Flag(rec.accountType == 1), Flag(rec.automaticLogin))
  {
    ModelView(Data(c, remote, idx, RealName), Data(c, remote, idx, Username), Data(c, remote, idx, Email),
              Data(c, remote, idx, Administrator), Data(c, remote, idx, AutomaticLogin))
  }

  /** Selecting another row reloads the editor from it: the draft row empties every box, an account row shows its record; nothing stays staged. */
  lemma SelectRow(c: Cache, remote: Store, ed: Editor, idx: Index)
    requires Inv(c) && idx.At? && idx != ed.index
    ensures var r := SetModelIndex(ed, idx, ViewOf(c, remote, idx));
      && r.index == idx && r.staged == map[]
      && (IsDraftRow(c, idx) ==>
            r.userName == "" && r.realName == "" && r.email == "" && !r.administrator && !r.automaticLogin)
      && (IsAccountRow(c, idx) ==>
            var rec := Fetch(remote, RowObject(c, idx));
            && r.userName == rec.userName && r.realName == rec.realName && r.email == rec.email
            && r.administrator == (rec.accountType == 1) && r.automaticLogin == rec.automaticLogin)
  {
  }

  /** The state after a sequence of writes, the service calls they made and each write's answer. */
  datatype Outcome = Outcome(cache: Cache, remote: Store, calls: seq<Call>, answers: seq<bool>)

  /** Play the writes of a save through `setData` in order; write `i` gets the service's `replies[i]`. */
  function ApplyWrites(c: Cache, remote: Store, idx: Index, writes: seq<Write>, replies: seq<Reply>): (r: Outcome)
    requires Inv(c) && |replies| == |writes|
    ensures Inv(r.cache) && r.cache.rows == c.rows && r.cache.users == c.users
    ensures |r.answers| == |writes|
    decreases |writes|
  {
    if |writes| == 0 then Outcome(c, remote, [], [])
    else
      var s := SetData(c, remote, idx, writes[0].value, writes[0].role, replies[0]);
      var rest := ApplyWrites(s.cache, s.remote, idx, writes[1..], replies[1..]);
      Outcome(rest.cache, rest.remote, s.calls + rest.calls, [s.ok] + rest.answers)
  }

  /** The four roles a save stages into the draft before the automatic-login write completes it. */
  const FirstFour: set<Role> := {Username, RealName, Email, Administrator}

  lemma FirstFourCard()
    ensures |FirstFour| == 4
  {
  }

  /** A draft-row write that leaves the draft within the first four roles is staged: true, no call, nothing else changes. */
  lemma StagedDraftWrite(c: Cache, remote: Store, idx: Index, value: Value, role: Role, reply: Reply)
    requires Inv(c) && IsDraftRow(c, idx) && c.draft.Keys + {role} <= FirstFour
    ensures SetData(c, remote, idx, value, role, reply) == Step(c.(draft := c.draft[role := value]), remote, true, [], [])
  {
    var d := c.draft[role := value];
    FirstFourCard();
    assert d.Keys <= FirstFour;
    SubsetCard(d.Keys, FirstFour);
    assert |d| == |d.Keys|;
  }

  lemma SubsetCard<T>(a: set<T>, b: set<T>)
    requires a <= b
    ensures |a| <= |b|
  {
    assert b == a + (b - a);
  }

  /** A write that is only staged contributes `true` and no call to the outcome of the writes from it on. */
  lemma ApplyStaged(c: Cache, remote: Store, idx: Index, ws: seq<Write>, rs: seq<Reply>, k: nat, next: Cache)
    requires Inv(c) && |rs| == |ws| && k < |ws|
    requires SetData(c, remote, idx, ws[k].value, ws[k].role, rs[k]) == Step(next, remote, true, [], [])
    ensures Inv(next)
    ensures var here := ApplyWrites(c, remote, idx, ws[k..], rs[k..]);
      var rest := ApplyWrites(next, remote, idx, ws[k + 1..], rs[k + 1..]);
      here.calls == rest.calls && here.answers == [true] + rest.answers
  {
    assert ws[k..][1..] == ws[k + 1..] && rs[k..][1..] == rs[k + 1..];
    var rest := ApplyWrites(next, remote, idx, ws[k + 1..], rs[k + 1..]);
    assert [] + rest.calls == rest.calls;
  }

  /** The last write contributes its own calls and answer. */
  lemma ApplyLast(c: Cache, remote: Store, idx: Index, ws: seq<Write>, rs: seq<Reply>)
    requires Inv(c) && |rs| == |ws| > 0
    ensures var k := |ws| - 1;
      var s := SetData(c, remote, idx, ws[k].value, ws[k].role, rs[k]);
      var o := ApplyWrites(c, remote, idx, ws[k..], rs[k..]);
      o.calls == s.calls && o.answers == [s.ok]
  {
    var k := |ws| - 1;
    var s := SetData(c, remote, idx, ws[k].value, ws[k].role, rs[k]);
    assert ws[k..][1..] == [] && rs[k..][1..] == [];
    assert s.calls + [] == s.calls;
  }

  /** The write that brings the draft from the first four roles to five makes the CreateUser call, typed by its own value. */
  lemma CompletingDraftWrite(c: Cache, remote: Store, idx: Index, ed: Editor, reply: Reply)
    requires Inv(c) && IsDraftRow(c, idx) && c.draft.Keys == FirstFour
    requires c.draft[Username] == Str(ed.userName) && c.draft[RealName] == Str(ed.realName)
    ensures var s := SetData(c, remote, idx, Flag(ed.automaticLogin), AutomaticLogin, reply);
      && s.ok == reply.ok
      && CountCreates(s.calls) == 1
      && s.calls[0] == CreateUser(ed.userName, ed.realName, if ed.automaticLogin then 1 else 0)
  {
    var d := c.draft[AutomaticLogin := Flag(ed.automaticLogin)];
    assert d.Keys == FirstFour + {AutomaticLogin};
    FirstFourCard();
    assert |d| == |d.Keys| == 5;
    assert DraftValue(d, Username) == Str(ed.userName) && DraftValue(d, RealName) == Str(ed.realName);
  }

  /**
   A save of the draft row, with no password staged and a draft holding at
   most the first four roles, sends exactly the five field writes; the fifth,
   automatic login, brings the draft to five roles and makes the one CreateUser
   call, whose account type is that write's value: the automatic-login box,
   not the administrator box.
   */
  lemma SaveOnDraftRow(c: Cache, remote: Store, ed: Editor, replies: seq<Reply>)
    requires Inv(c) && IsDraftRow(c, ed.index)
    requires |ed.staged| > 0 && Password !in ed.staged
    requires c.draft.Keys <= FirstFour
    requires |replies| == 5
    ensures var saved := Save(ed);
      var out := ApplyWrites(c, remote, ed.index, saved.writes, replies);
      && saved.ok
      && |saved.writes| == 5
      && saved.writes[4] == Write(AutomaticLogin, Flag(ed.automaticLogin))
      && CountCreates(out.calls) == 1
      && out.calls[0] == CreateUser(ed.userName, ed.realName, if ed.automaticLogin then 1 else 0)
      && out.answers == [true, true, true, true, replies[4].ok]
  {
    var saved := Save(ed);
    assert saved.writes == saved.writes[..5];
    FieldWritesOnDraft(c, remote, ed, replies);
  }

  /** The draft after the first four field writes have been staged into it. */
  function StagedFour(c: Cache, ed: Editor): (r: Cache)
    ensures r.draft.Keys == c.draft.Keys + FirstFour
    ensures r.draft[Username] == Str(ed.userName) && r.draft[RealName] == Str(ed.realName)
    ensures r == c.(draft := r.draft)
  {
    c.(draft := c.draft[Username := Str(ed.userName)][RealName := Str(ed.realName)][Email := Str(ed.email)]
                        [Administrator := Flag(ed.administrator)])
  }

  /** Field write `k`, one of the first four, on the draft row: staged, so it answers true and makes no call. */
  lemma StagedAt(c: Cache, remote: Store, ed: Editor, replies: seq<Reply>, k: nat, next: Cache)
    requires Inv(c) && IsDraftRow(c, ed.index)
    requires c.draft.Keys <= FirstFour
    requires |replies| == 5 && k < 4
    requires next == c.(draft := c.draft[FieldWrites(ed)[k].role := FieldWrites(ed)[k].value])
    ensures Inv(next) && IsDraftRow(next, ed.index) && next.draft.Keys <= FirstFour
    ensures var ws := FieldWrites(ed);
      var here := ApplyWrites(c, remote, ed.index, ws[k..], replies[k..]);
      var rest := ApplyWrites(next, remote, ed.index, ws[k + 1..], replies[k + 1..]);
      here.calls == rest.calls && here.answers == [true] + rest.answers
  {
    var w := FieldWrites(ed)[k];
    StagedDraftWrite(c, remote, ed.index, w.value, w.role, replies[k]);
    ApplyStaged(c, remote, ed.index, FieldWrites(ed), replies, k, next);
  }

  /** The cache once the first `k` field writes have been staged into the draft. */
  function StagedUpTo(c: Cache, ed: Editor, k: nat): (r: Cache)
    requires Inv(c) && k <= 4
    ensures Inv(r) && r == c.(draft := r.draft)
    ensures r.draft.Keys <= c.draft.Keys + FirstFour
    decreases k
  {
    if k == 0 then c
    else
      var p := StagedUpTo(c, ed, k - 1);
      var w := FieldWrites(ed)[k - 1];
      InvIgnoresDraft(p, p.draft[w.role := w.value]);
      p.(draft := p.draft[w.role := w.value])
  }

  /** The outcome of the field writes from `k` on, played on the cache with the first `k` already staged. */
  function FromWrite(c: Cache, remote: Store, ed: Editor, replies: seq<Reply>, k: nat): Outcome
    requires Inv(c) && |replies| == 5 && k <= 4
  {
    ApplyWrites(StagedUpTo(c, ed, k), remote, ed.index, FieldWrites(ed)[k..], replies[k..])
  }

  /** `here` makes the calls of `last` and answers `n` times true before the answers of `last`. */
  predicate TruePrefix(here: Outcome, last: Outcome, n: nat) {
    here.calls == last.calls && here.answers == seq(n, _ => true) + last.answers
  }

  /** From field write `k` on, the staged writes answer true and add no call before the fifth. */
  lemma {:induction false} StagedFrom(c: Cache, remote: Store, ed: Editor, replies: seq<Reply>, k: nat)
    requires Inv(c) && IsDraftRow(c, ed.index)
    requires c.draft.Keys <= FirstFour
    requires |replies| == 5 && k <= 4
    ensures TruePrefix(FromWrite(c, remote, ed, replies, k), FromWrite(c, remote, ed, replies, 4), 4 - k)
    decreases 4 - k
  {
    if k < 4 {
      StagedFrom(c, remote, ed, replies, k + 1);
      StagedFromStep(c, remote, ed, replies, k);
    } else {
      NoPrefix(FromWrite(c, remote, ed, replies, 4));
    }
  }

  /** The inductive step of `StagedFrom`: staging write `k` puts one more `true` in front. */
  lemma StagedFromStep(c: Cache, remote: Store, ed: Editor, replies: seq<Reply>, k: nat)
    requires Inv(c) && IsDraftRow(c, ed.index)
    requires c.draft.Keys <= FirstFour
    requires |replies| == 5 && k < 4
    requires TruePrefix(FromWrite(c, remote, ed, replies, k + 1), FromWrite(c, remote, ed, replies, 4), 4 - (k + 1))
    ensures TruePrefix(FromWrite(c, remote, ed, replies, k), FromWrite(c, remote, ed, replies, 4), 4 - k)
  {
    StagedUpToStep(c, ed, k);
    StagedAt(StagedUpTo(c, ed, k), remote, ed, replies, k, StagedUpTo(c, ed, k + 1));
    PrefixStep(FromWrite(c, remote, ed, replies, k), FromWrite(c, remote, ed, replies, k + 1),
               FromWrite(c, remote, ed, replies, 4), 4 - k);
  }

  lemma NoPrefix(o: Outcome)
    ensures TruePrefix(o, o, 0)
  {
    assert seq(0, _ => true) == [];
  }

  /** One more staged write keeps the cache on the draft row with a draft inside the first four roles. */
  lemma StagedUpToStep(c: Cache, ed: Editor, k: nat)
    requires Inv(c) && IsDraftRow(c, ed.index) && c.draft.Keys <= FirstFour && k < 4
    ensures var ck := StagedUpTo(c, ed, k);
      && IsDraftRow(ck, ed.index) && ck.draft.Keys <= FirstFour
      && StagedUpTo(c, ed, k + 1) == ck.(draft := ck.draft[FieldWrites(ed)[k].role := FieldWrites(ed)[k].value])
  {
  }

  lemma PrefixStep(here: Outcome, rest: Outcome, last: Outcome, n: nat)
    requires n > 0 && here.calls == rest.calls && here.answers == [true] + rest.answers && TruePrefix(rest, last, n - 1)
    ensures TruePrefix(here, last, n)
  {
    assert seq(n, _ => true) == [true] + seq(n - 1, _ => true);
  }

  /** Staging all four writes one by one gives the draft of `StagedFour`. */
  lemma StagedUpToFour(c: Cache, ed: Editor)
    requires Inv(c)
    ensures StagedUpTo(c, ed, 4) == StagedFour(c, ed)
  {
    var ws := FieldWrites(ed);
    var c2 := StagedUpTo(c, ed, 2);
    assert c2.draft == c.draft[ws[0].role := ws[0].value][ws[1].role := ws[1].value];
  }

  lemma FourTrue()
    ensures seq(4, _ => true) == [true, true, true, true]
  {
  }

  /** The first four field writes on the draft row are staged: four answers true, no call. */
  lemma FourStaged(c: Cache, remote: Store, ed: Editor, replies: seq<Reply>)
    requires Inv(c) && IsDraftRow(c, ed.index)
    requires c.draft.Keys <= FirstFour
    requires |replies| == 5
    ensures var out := ApplyWrites(c, remote, ed.index, FieldWrites(ed), replies);
      var last := FromWrite(c, remote, ed, replies, 4);
      out.calls == last.calls && out.answers == [true, true, true, true] + last.answers
  {
    StagedFrom(c, remote, ed, replies, 0);
    assert FieldWrites(ed)[0..] == FieldWrites(ed) && replies[0..] == replies;
    FourTrue();
  }

  /** The fifth field write, on the draft holding the first four roles, makes the one CreateUser call. */
  lemma FifthCreates(c: Cache, remote: Store, ed: Editor, replies: seq<Reply>)
    requires Inv(c) && IsDraftRow(c, ed.index)
    requires c.draft.Keys <= FirstFour
    requires |replies| == 5
    ensures var last := FromWrite(c, remote, ed, replies, 4);
      && CountCreates(last.calls) == 1
      && last.calls[0] == CreateUser(ed.userName, ed.realName, if ed.automaticLogin then 1 else 0)
      && last.answers == [replies[4].ok]
  {
    var ws := FieldWrites(ed);
    var c4 := StagedFour(c, ed);
    StagedUpToFour(c, ed);
    assert c4.draft.Keys == FirstFour;
    assert ws[4] == Write(AutomaticLogin, Flag(ed.automaticLogin));
    CompletingDraftWrite(c4, remote, ed.index, ed, replies[4]);
    ApplyLast(c4, remote, ed.index, ws, replies);
  }

  /** The five field writes played on the draft row: four staged, the fifth creates. */
  lemma FieldWritesOnDraft(c: Cache, remote: Store, ed: Editor, replies: seq<Reply>)
    requires Inv(c) && IsDraftRow(c, ed.index)
    requires c.draft.Keys <= FirstFour
    requires |replies| == 5
    ensures var out := ApplyWrites(c, remote, ed.index, FieldWrites(ed), replies);
      && CountCreates(out.calls) == 1
      && out.calls[0] == CreateUser(ed.userName, ed.realName, if ed.automaticLogin then 1 else 0)
      && out.answers == [true, true, true, true, replies[4].ok]
  {
    FourStaged(c, remote, ed, replies);
    FifthCreates(c, remote, ed, replies);
  }
}

=== FILE: seqs.dfy ===
/**
 The QList operations the account list relies on, on Dafny sequences:
 duplicate-freedom, the element set, indexOf, removeAll and insert.
 */
module Seqs {

  predicate Distinct<T(==)>(s: seq<T>) {
    forall i, j | 0 <= i < j < |s| :: s[i] != s[j]
  }

  function Elems<T(==)>(s: seq<T>): set<T> {
    set x | x in s
  }

  /** QList::insert(i, x). */
  function InsertAt<T(==)>(s: seq<T>, i: nat, x: T): (r: seq<T>)
    requires i <= |s|
    ensures |r| == |s| + 1
    ensures r[i] == x
    ensures r[..i] == s[..i] && r[i + 1..] == s[i..]
    ensures Elems(r) == Elems(s) + {x}
  {
    s[..i] + [x] + s[i..]
  }

  /** QList::indexOf: the first position holding `x`, or -1. */
  function IndexOf<T(==)>(s: seq<T>, x: T): (r: int)
    ensures r == -1 <==> x !in s
    ensures r != -1 ==> 0 <= r < |s| && s[r] == x && x !in s[..r]
  {
    if |s| == 0 then -1
    else if s[0] == x then 0
    else
      var k := IndexOf(s[1..], x);
      if k == -1 then -1 else k + 1
  }

  /** QList::removeAll: every occurrence of `x` goes, the rest keeps its order. */
  function RemoveAll<T(==,!new)>(s: seq<T>, x: T): (r: seq<T>)
    ensures x !in r
    ensures forall y :: y in r <==> y in s && y != x
    ensures |r| <= |s|
  {
    if |s| == 0 then []
    else if s[0] == x then RemoveAll(s[1..], x)
    else [s[0]] + RemoveAll(s[1..], x)
  }

  /** Removing an element that is not there changes nothing. */
  lemma {:induction false} RemoveAllAbsent<T(!new)>(s: seq<T>, x: T)
    requires x !in s
    ensures RemoveAll(s, x) == s
  {
    if |s| > 0 {
      RemoveAllAbsent(s[1..], x);
      assert s == [s[0]] + s[1..];
    }
  }

  /** In a duplicate-free sequence removeAll drops exactly the one position holding `x`. */
  lemma {:induction false} RemoveAllOnce<T(!new)>(s: seq<T>, x: T)
    requires Distinct(s) && x in s
    ensures 0 <= IndexOf(s, x) < |s|
    ensures RemoveAll(s, x) == s[..IndexOf(s, x)] + s[IndexOf(s, x) + 1..]
  {
    var t := s[1..];
    assert Distinct(t) by {
      forall i, j | 0 <= i < j < |t|
        ensures t[i] != t[j]
      {
        assert t[i] == s[i + 1] && t[j] == s[j + 1];
      }
    }
    if s[0] == x {
      assert x !in t by {
        forall k | 0 <= k < |t|
          ensures t[k] != x
        {
          assert t[k] == s[k + 1];
        }
      }
      RemoveAllAbsent(t, x);
    } else {
      assert x in t;
      RemoveAllOnce(t, x);
      var i := IndexOf(t, x);
      assert IndexOf(s, x) == i + 1;
      assert s[..i + 1] == [s[0]] + t[..i];
      assert s[i + 2..] == t[i + 1..];
    }
  }

  /** The last element of a duplicate-free sequence is not among the others, which stay duplicate-free. */
  lemma DistinctInit<T>(s: seq<T>)
    requires Distinct(s) && |s| > 0
    ensures Distinct(s[..|s| - 1]) && s[|s| - 1] !in s[..|s| - 1]
  {
    var xs := s[..|s| - 1];
    forall k | 0 <= k < |xs|
      ensures xs[k] != s[|s| - 1]
    {
      assert xs[k] == s[k];
    }
  }

  /** In a duplicate-free sequence indexOf finds each element at its one position. */
  lemma IndexOfDistinct<T>(s: seq<T>, i: nat)
    requires Distinct(s) && i < |s|
    ensures IndexOf(s, s[i]) == i
  {
  }

  /** Dropping a position other than the last keeps the last element last. */
  lemma DropKeepsLast<T>(s: seq<T>, i: nat)
    requires i < |s| - 1
    ensures var r := s[..i] + s[i + 1..]; |r| == |s| - 1 && r[|r| - 1] == s[|s| - 1]
  {
  }

  /** A sequence never has more distinct elements than positions. */
  lemma {:induction false} ElemsBound<T>(s: seq<T>)
    ensures |Elems(s)| <= |s|
  {
    if |s| > 0 {
      ElemsBound(s[1..]);
      assert Elems(s) == {s[0]} + Elems(s[1..]) by {
        assert s == [s[0]] + s[1..];
      }
    }
  }

  /** Counting distinct elements decides duplicate-freedom. */
  lemma {:induction false} CountedDistinct<T>(s: seq<T>)
    requires |Elems(s)| == |s|
    ensures Distinct(s)
  {
    if |s| > 0 {
      var t := s[1..];
      assert Elems(s) == {s[0]} + Elems(t) by {
        assert s == [s[0]] + t;
      }
      ElemsBound(t);
      assert s[0] !in t;
      CountedDistinct(t);
      forall i, j | 0 <= i < j < |s|
        ensures s[i] != s[j]
      {
        if i == 0 {
          assert s[j] == t[j - 1];
        } else {
          assert s[i] == t[i - 1] && s[j] == t[j - 1];
        }
      }
    }
  }

  /** Removing an element that occurs once shortens the sequence by one. */
  lemma RemoveAllCount<T(!new)>(s: seq<T>, x: T)
    requires |Elems(s)| == |s| && x in s
    ensures |RemoveAll(s, x)| == |s| - 1
    ensures Elems(RemoveAll(s, x)) == Elems(s) - {x}
    ensures |Elems(RemoveAll(s, x))| == |RemoveAll(s, x)|
  {
    CountedDistinct(s);
    RemoveAllOnce(s, x);
    assert x in Elems(s);
    assert Elems(RemoveAll(s, x)) == Elems(s) - {x};
  }

}

=== FILE: text.dfy ===
/**
 Character and string helpers the account editor relies on: ASCII case
 mapping (the Unicode tables behind QChar are not modelled), removal of one
 character everywhere, whitespace trimming, and the UTF-16 length QString
 reports.
 */
module Text {

  predicate IsUpper(ch: char) {
    'A' <= ch <= 'Z'
  }

  predicate IsLower(ch: char) {
    'a' <= ch <= 'z'
  }

  /** QChar::toLower restricted to ASCII. */
  function ToLower(ch: char): (r: char)
    ensures !IsUpper(r)
    ensures IsUpper(ch) ==> IsLower(r) && r as int == ch as int + 32
    ensures !IsUpper(ch) ==> r == ch
  {
    if IsUpper(ch) then (ch as int + 32) as char else ch
  }

  /** QString::toLower restricted to ASCII. */
  function Lower(s: string): (r: string)
    ensures |r| == |s|
    ensures forall k | 0 <= k < |r| :: r[k] == ToLower(s[k])
  {
    if |s| == 0 then [] else [ToLower(s[0])] + Lower(s[1..])
  }

  /** QString::remove(QChar): every occurrence of `x` goes, the rest keeps its order. */
  function RemoveChar(s: string, x: char): (r: string)
    ensures x !in r
    ensures forall ch :: ch in r <==> ch in s && ch != x
    ensures |r| <= |s|
  {
    if |s| == 0 then []
    else if s[0] == x then RemoveChar(s[1..], x)
    else [s[0]] + RemoveChar(s[1..], x)
  }

  /**
   QChar::isSpace: tab through carriage return, next line, no-break space, and
   the Unicode space, line and paragraph separators.
   */
  predicate IsSpace(ch: char) {
    || '\t' <= ch <= '\r' || ch == ' ' || ch == '\U{85}' || ch == '\U{A0}' || ch == '\U{1680}'
    || '\U{2000}' <= ch <= '\U{200A}' || ch == '\U{2028}' || ch == '\U{2029}' || ch == '\U{202F}'
    || ch == '\U{205F}' || ch == '\U{3000}'
  }

  predicate AllSpace(s: string) {
    forall k | 0 <= k < |s| :: IsSpace(s[k])
  }

  function TrimStart(s: string): (r: string)
    ensures |r| <= |s|
    ensures r == s[|s| - |r|..]
    ensures |r| > 0 ==> !IsSpace(r[0])
    ensures AllSpace(s[..|s| - |r|])
  {
    if |s| > 0 && IsSpace(s[0]) then TrimStart(s[1..]) else s
  }

  function TrimEnd(s: string): (r: string)
    ensures |r| <= |s|
    ensures r == s[..|r|]
    ensures |r| > 0 ==> !IsSpace(r[|r| - 1])
    ensures AllSpace(s[|r|..])
  {
    if |s| > 0 && IsSpace(s[|s| - 1]) then TrimEnd(s[..|s| - 1]) else s
  }

  /** QString::trimmed: whitespace removed from both ends. */
  function Trimmed(s: string): string {
    TrimEnd(TrimStart(s))
  }

  /** A string trims to nothing exactly when it is made of whitespace only. */
  lemma {:induction false} TrimmedEmptyIffAllSpace(s: string)
    ensures Trimmed(s) == [] <==> AllSpace(s)
  {
    var t := TrimStart(s);
    if !AllSpace(s) {
      var k :| 0 <= k < |s| && !IsSpace(s[k]);
      assert s[..|s|] == s;
    }
  }

  /** QString::count: UTF-16 code units, two for a character outside the Basic Multilingual Plane. */
  function Utf16Length(s: string): (n: nat)
    ensures |s| <= n <= 2 * |s|
    ensures (forall k | 0 <= k < |s| :: s[k] as int <= 0xFFFF) ==> n == |s|
  {
    if |s| == 0 then 0 else (if s[0] as int > 0xFFFF then 2 else 1) + Utf16Length(s[1..])
  }

  /** A string without `x` is left alone by RemoveChar. */
  lemma {:induction false} RemoveCharAbsent(s: string, x: char)
    requires x !in s
    ensures RemoveChar(s, x) == s
  {
    if |s| > 0 {
      assert s[0] != x;
      RemoveCharAbsent(s[1..], x);
      assert s == [s[0]] + s[1..];
    }
  }

  /** Lower-casing and dropping spaces commute (a space has no case). */
  lemma {:induction false} LowerRemoveSpaceCommute(s: string)
    ensures RemoveChar(Lower(s), ' ') == Lower(RemoveChar(s, ' '))
  {
    if |s| > 0 {
      LowerRemoveSpaceCommute(s[1..]);
      assert Lower(s)[1..] == Lower(s[1..]);
      if s[0] != ' ' {
        assert Lower([s[0]] + RemoveChar(s[1..], ' '))
            == [ToLower(s[0])] + Lower(RemoveChar(s[1..], ' '));
      }
    }
  }

  /** Every letter of a lower-cased string is already lower case. */
  lemma LowerHasNoUpper(s: string)
    ensures forall k | 0 <= k < |Lower(s)| :: !IsUpper(Lower(s)[k])
  {
  }

  /** A string with no upper-case letter is its own lower-case form. */
  lemma {:induction false} LowerOfLower(s: string)
    requires forall k | 0 <= k < |s| :: !IsUpper(s[k])
    ensures Lower(s) == s
  {
    if |s| > 0 {
      LowerOfLower(s[1..]);
      assert s == [s[0]] + s[1..];
    }
  }

  /** Removing a character keeps the characters that remain unchanged. */
  lemma {:induction false} RemoveCharKeepsLower(s: string, x: char)
    requires forall k | 0 <= k < |s| :: !IsUpper(s[k])
    ensures forall k | 0 <= k < |RemoveChar(s, x)| :: !IsUpper(RemoveChar(s, x)[k])
  {
    var r := RemoveChar(s, x);
    forall k | 0 <= k < |r|
      ensures !IsUpper(r[k])
    {
      assert r[k] in r;
      assert r[k] in s;
    }
  }
}

=== FILE: values.dfy ===
/**
 The small vocabulary shared by the account list and the account editor:
 optional values, the typed field roles, the variant values that travel
 through `data`/`setData`, and model indexes.
 */
module Values {
  import opened Text

  datatype Option<+T> = None | Some(value: T)

  /** The typed field roles of the account list (the display and decoration roles are not modelled). */
  datatype Role = Face | RealName | Username | Email | Administrator | AutomaticLogin | Logged | Created | Password

  /** A QVariant as far as this component uses one: empty, a string or a boolean. */
  datatype Value = Empty | Str(text: string) | Flag(bit: bool)

  /** QVariant::toString. */
  function AsString(v: Value): (s: string)
    ensures v.Str? ==> s == v.text
    ensures v.Empty? ==> s == ""
    ensures v.Flag? ==> s == (if v.bit then "true" else "false")
  {
    match v
    case Empty => ""
    case Str(t) => t
    case Flag(b) => if b then "true" else "false"
  }

  /** QVariant::toBool: a string converts to true unless its lower-case content is empty, "0" or "false". */
  function AsBool(v: Value): (b: bool)
    ensures v.Flag? ==> b == v.bit
    ensures v.Empty? ==> !b
    ensures v.Str? ==> (b <==> !(v.text == "" || Lower(v.text) == "0" || Lower(v.text) == "false"))
  {
    match v
    case Empty => false
    case Str(t) => !(t == "" || Lower(t) == "0" || Lower(t) == "false")
    case Flag(b) => b
  }

  /** A boolean survives the round trip through a variant and back. */
  lemma FlagRoundTrip(b: bool)
    ensures AsBool(Flag(b)) == b
    ensures AsBool(Str(AsString(Flag(b)))) == b
  {
    if !b {
      assert Lower("false") == "false";
    } else {
      assert Lower("true") == "true";
    }
  }

  /** A QModelIndex of the list: invalid, or a row (which may lie beyond the current row count). */
  datatype Index = Invalid | At(row: nat)
}
